=== FILE: README.md ===
# PathFinder-AI backend core in Dafny

This project models the core of the PathFinder-AI backend, an Express and Mongoose service. It holds each user's skills, qualifications and interests and asks Gemini for career recommendations. The model covers these parts:

- **The four owner-checked resource controllers** (skill, qualification, interest, recommendation).
  - A collection is a `map<Id, R>`.
  - Every handler is a pure function or a short method from the collection, the requester and the request to a reply (status, body) and the collection afterwards.
  - The shared shape of the handlers lives in `Crud`:
    - create takes the owner from the requester;
    - get, update and delete answer 404 before 403, and both before anything changes;
    - the by-user lists answer 403 before any read and 404 when nothing is found;
    - lists are sorted the way MongoDB's `sort({ field: -1 })` sorts, with missing values last.
  - Each resource module adds its schema (required and optional paths, defaults, casts) and its own orderings.
- **`generateRecommendations`** (`Generate`):
  - the 403, 404, 400 guard chain, in which the service is never called when there is no data;
  - the data handed to the Gemini service;
  - the element-by-element mapping and saving of the reply, stopping at the first error and keeping what was saved before it.
- **The Gemini service** (`Prompt`, `Gemini`):
  - the prompt text;
  - the proof that it depends only on the names of the skills, qualifications and interests;
  - the error collapse to one generic message.
  The model call and `JSON.parse` are parameters.
- **The authentication middleware** (`Auth`):
  - the bearer-token extraction and the three verifier failures;
  - the lookup of the user without the password.
  The JWT verifier is a parameter.
- **The User schema** (`Users`): required and unique paths, the e-mail pattern, the pre-save hashing hook and `matchPassword`. bcrypt is a parameter.
- **`APIFeatures`** (`ApiFeatures`):
  - filter, with its operator marking proved equal to a word-by-word definition;
  - sort and field selection with their defaults;
  - paging with `parseInt(x) || default`.

Modules: `Common` (ids, results, schema-path casts), `Text`, `Sorting`, `Json`, `Crud`, `Skills`, `Qualifications`, `Interests`, `Recommendations`, `Users`, `Prompt`, `Gemini`, `Generate`, `Auth`, `ApiFeatures`.

## Model

| member | source | states |
|---|---|---|
| Crud.Select | backend/controllers/skillController.js:46-47 | `find({ userId })` yields every document of the owner exactly once and nothing else |
| Crud.EmptySelection | backend/controllers/skillController.js:49-51 | the selection is empty exactly when the owner has no document |
| Crud.Save | backend/controllers/skillController.js:12-13 | a save succeeds iff the document validates and its `_id` is fresh; it adds exactly that key and keeps every other document |
| Crud.Create | backend/controllers/skillController.js:6-19 | 201 iff the document validates (and the id is fresh) with only the new key added; otherwise 400 and the collection unchanged |
| Crud.Get | backend/controllers/skillController.js:63-80 | a bad id is a CastError (500); 404 iff absent, 403 iff another user's, 200 iff the requester's; nothing changes |
| Crud.Update | backend/controllers/skillController.js:85-108 | same 404-before-403 checks (a bad id is 400 here); a validation failure is 400; on success only the target changes; on any error nothing changes |
| Crud.Delete | backend/controllers/skillController.js:113-132 | 404, 403, 200 as for get; success removes exactly the target; every other document is untouched |
| Crud.ListOwn | backend/controllers/skillController.js:24-33 | all and only the requester's documents, newest `createdAt` first |
| Crud.Sorted | backend/controllers/skillController.js:46-47 | sorting keeps exactly the owner's documents, distinct, in non-increasing key order |
| Crud.ListByUser | backend/controllers/skillController.js:38-58 | 403 for another user's id before any read; 404 iff the owner has nothing; otherwise all of them in key order |
| Crud.NotFoundForEveryone | backend/controllers/skillController.js:63-72 | whether an id is 404 does not depend on who asks, for get, and for update with any body and delete alike |
| Crud.CreateThenGet | backend/controllers/skillController.js:6-80 | a created document is readable by its owner under its new id and 403 for anyone else |
| Crud.DeleteThenGet | backend/controllers/skillController.js:113-132 | after a successful delete, getting the same id is 404 for everyone |
| Crud.UpdateThenGet | backend/controllers/skillController.js:85-108 | after a successful update, the document's owner reads back exactly the updated document |
| Sorting.SortIsSorted | backend/controllers/skillController.js:26-27 | the sort puts keys in non-increasing order, missing keys last |
| Sorting.SortDistinct | backend/controllers/skillController.js:26-27 | sorting never duplicates an `_id` |
| Common.CanonicalIdCastsToItself | backend/controllers/skillController.js:65 | a stored id written as 24 lower-case hex digits casts back to itself |
| Skills.ProficiencyRoundTrip | backend/models/skill.js:7 | the enum labels and the three proficiency levels are in one-to-one correspondence |
| Skills.LevelCheck | backend/models/skill.js:7 | a given level outside the enum is rejected; null and absent pass |
| Skills.Build | backend/models/skill.js:4-9 | a new skill validates iff `skillName` is a non-empty string and the other paths cast; the owner is the requester; both timestamps are `now` |
| Skills.Patch | backend/models/skill.js:4-9 | an update stores every given path (`userId` included), clears optional paths set to null, keeps absent ones, rejects null or empty `skillName` and a null `userId`, keeps `createdAt` and sets `updatedAt` to `now` |
| Skills.CreateSkill | backend/controllers/skillController.js:6-19 | 201 with a document owned by the requester, or 400 with nothing stored |
| Skills.GetSkill | backend/controllers/skillController.js:63-80 | only the owner gets the skill; messages as in the source |
| Skills.UpdateSkill | backend/controllers/skillController.js:85-108 | only the owner's target changes |
| Skills.DeleteSkill | backend/controllers/skillController.js:113-132 | only the owner's target is removed |
| Skills.ListSkills | backend/controllers/skillController.js:24-33 | the requester's skills, newest first |
| Skills.ListSkillsByUser | backend/controllers/skillController.js:38-58 | 403 for another user's id, 404 iff the requester has none, otherwise the user's skills by `yearsExperience`, most first, missing last |
| Skills.CreateIgnoresBodyOwner | backend/controllers/skillController.js:8-11 | a `userId` in the create body has no effect |
| Skills.UpdateCanReassignOwner | backend/controllers/skillController.js:97-101 | an owner's update body may move the skill to another user, who then owns it |
| Qualifications.Build | backend/models/qualification.js:4-12 | validates iff `title` is a non-empty string and the other paths cast; optional paths hold the given value or none; each timestamp holds the given value, none for null, and `now` only when absent |
| Qualifications.Patch | backend/models/qualification.js:4-12 | every given path is stored (`userId` included), null clears an optional path, absent paths are kept; `updatedAt` changes only if given |
| Qualifications.CreateQualification | backend/controllers/qualificationController.js:6-19 | 201 with a document owned by the requester, or 400 with nothing stored |
| Qualifications.GetQualification | backend/controllers/qualificationController.js:63-80 | only the owner gets it; messages as in the source |
| Qualifications.UpdateQualification | backend/controllers/qualificationController.js:85-108 | only the owner's target changes; `updatedAt` is not advanced |
| Qualifications.DeleteQualification | backend/controllers/qualificationController.js:113-132 | only the owner's target is removed |
| Qualifications.ListQualifications | backend/controllers/qualificationController.js:24-33 | the requester's qualifications, newest first |
| Qualifications.ListQualificationsByUser | backend/controllers/qualificationController.js:38-58 | 403 for another user's id, 404 iff the requester has none, otherwise the user's qualifications by `dateObtained`, latest first, undated last |
| Qualifications.CreateIgnoresBodyOwner | backend/controllers/qualificationController.js:8-11 | a `userId` in the create body has no effect |
| Qualifications.DescriptionOnlyUpdate | backend/controllers/qualificationController.js:97-101 | updating only the description changes exactly that field |
| Interests.Build | backend/models/interest.js:4-10 | validates iff `interestName` is a non-empty string and the other paths cast; the owner is the requester; `description` is the given value or none; each timestamp is the given value, none for null, or `now` when absent |
| Interests.Patch | backend/models/interest.js:4-10 | every given path is stored (`userId` included), null clears an optional path, absent paths are kept |
| Interests.CreateInterest | backend/controllers/interestController.js:6-19 | 201 with a document owned by the requester, or 400 with nothing stored |
| Interests.GetInterest | backend/controllers/interestController.js:63-80 | only the owner gets it |
| Interests.UpdateInterest | backend/controllers/interestController.js:85-108 | only the owner's target changes |
| Interests.DeleteInterest | backend/controllers/interestController.js:113-132 | only the owner's target is removed |
| Interests.ListInterests | backend/controllers/interestController.js:24-33 | the requester's interests, newest first |
| Interests.ListInterestsByUser | backend/controllers/interestController.js:38-58 | 403 for another user's id, 404 iff the requester has none, otherwise the user's interests, newest first |
| Interests.CreateIgnoresBodyOwner | backend/controllers/interestController.js:8-11 | a `userId` in the create body has no effect |
| Interests.EmptyNameRejected | backend/models/interest.js:6 | an empty `interestName` is a 400 on create and on update, with nothing changed |
| Recommendations.Build | backend/models/recommendation.js:4-12 | validates iff `careerSuggestion` is a non-empty string and the other paths cast; optional paths hold the given value or none (a null `courseLink` included); each timestamp is the given value, none for null, or `now` when absent |
| Recommendations.Patch | backend/models/recommendation.js:4-12 | every given path is stored (`userId` included), null clears an optional path, absent paths are kept |
| Recommendations.CreateRecommendation | backend/controllers/recommendationController.js:11-24 | 201 with a document owned by the requester, or 400 with nothing stored |
| Recommendations.GetRecommendation | backend/controllers/recommendationController.js:145-162 | only the owner gets it |
| Recommendations.UpdateRecommendation | backend/controllers/recommendationController.js:167-190 | only the owner's target changes |
| Recommendations.DeleteRecommendation | backend/controllers/recommendationController.js:195-214 | only the owner's target is removed |
| Recommendations.ListRecommendations | backend/controllers/recommendationController.js:106-115 | the requester's recommendations, newest first |
| Recommendations.ListRecommendationsByUser | backend/controllers/recommendationController.js:120-140 | 403 for another user's id, 404 iff the requester has none, otherwise the user's recommendations, newest first |
| Recommendations.CreateIgnoresBodyOwner | backend/controllers/recommendationController.js:13-16 | a `userId` in the create body has no effect |
| Generate.DraftOf | backend/controllers/recommendationController.js:75-83 | career and explanation become `careerSuggestion` and `justification`; courses are stringified when truthy, else null; model name "Gemini Pro"; confidence defaults to 0.85 and skill gaps to `[]`; a null element is a TypeError |
| Generate.RecordFor | backend/controllers/recommendationController.js:75-85 | a saved element is owned by the path user, names "Gemini Pro", and requires a career |
| Generate.ConfidenceAndGapsNotStored | backend/models/recommendation.js:4-12 | two elements that differ only in confidence and skill gaps are stored identically |
| Generate.SaveAll | backend/controllers/recommendationController.js:72-87 | saves in order under successive ids, each document being its element's record; stops at the first error |
| Generate.SaveAllKeeps | backend/controllers/recommendationController.js:84-85 | no rollback: existing documents stay and every saved one is in the collection |
| Generate.SaveAllAddsOnlySaved | backend/controllers/recommendationController.js:84-86 | nothing but the reported documents is added |
| Generate.FirstRejected | backend/controllers/recommendationController.js:73-86 | the index of the first element whose save fails |
| Generate.SavesUpToFirstRejected | backend/controllers/recommendationController.js:73-86 | with fresh ids, exactly the elements before the first rejected one are saved, and the loop fails with that element's error |
| Generate.Elements | backend/controllers/recommendationController.js:73 | the loop walks the `recommendations` array, or nothing when it is missing or not an array; a null reply is a TypeError |
| Generate.GenerateRecommendations | backend/controllers/recommendationController.js:29-101 | 403, then 404, then 400 iff the user has no data (service never called); the service sees exactly the user's documents and profile; 201 with the saved list or 500 with the partial collection |
| Generate.ListedDocs | backend/controllers/recommendationController.js:44-46 | the documents fetched list exactly the user's documents |
| Prompt.LinesOfFewNames | backend/services/geminiAIService.js:12-14 | an empty collection leaves its prompt line empty; a single document puts exactly its name there, with no separator |
| Prompt.LinesAvoidBreaks | backend/services/geminiAIService.js:12-14 | single-line names give single-line prompt lines |
| Prompt.FillDependsOnlyOnNames | backend/services/geminiAIService.js:11-45 | for names without line breaks, two prompts are equal iff the three name lists join to the same lines |
| Prompt.SameLinesSamePrompt | backend/services/geminiAIService.js:11-14 | for any names, equal skill, qualification and interest lines give equal prompts |
| Gemini.PromptDependsOnlyOnNames | backend/services/geminiAIService.js:11-45 | for names without line breaks, the actual prompt is equal for two users iff their skill, qualification and interest lines agree |
| Gemini.GenerateCareerRecommendations | backend/services/geminiAIService.js:8-66 | success iff the model answers and the answer parses, returning the parsed value unchanged; every failure is the one generic message |
| Gemini.IdentityNeverSent | backend/services/geminiAIService.js:11-14 | the username, e-mail and names never affect the result |
| Gemini.UnparsableReplyIsGeneric | backend/services/geminiAIService.js:57-65 | an unparsable reply surfaces as the generic message, not the parse message |
| Auth.Token | backend/middleware/authMiddleware.js:13 | the token is the text after "Bearer " up to the next space |
| Auth.TokenRoundTrip | backend/middleware/authMiddleware.js:9-13 | a space-free token after the prefix is read back whole, with or without trailing words |
| Auth.Authenticate | backend/middleware/authMiddleware.js:5-43 | 401 "No token provided" without the bearer form and no verifier call; 401 with the expired, invalid or generic message; 401 "User not found" for a missing claim or an id with no user; 500 for an uncastable claim; otherwise the user without password |
| Auth.SignedInUserPasses | backend/middleware/authMiddleware.js:31-38 | a verified token naming an existing user passes as that user |
| Auth.VerifierOnlyForBearer | backend/middleware/authMiddleware.js:9-19 | the verifier is called iff the header has the bearer form |
| Users.ValidEmailMatchesPattern | backend/models/user.js:10 | the executable e-mail check accepts exactly the strings the pattern `^[^\s@]+@[^\s@]+\.[^\s@]+$` matches |
| Users.Validate | backend/models/user.js:4-15 | a user validates iff username, email and password are non-empty strings and the email matches; the names hold the given value or none; missing paths are named |
| Users.PreSave | backend/models/user.js:18-22 | the password is hashed exactly when it was modified |
| Users.Insert | backend/models/user.js:5-9 | an insert fails with a duplicate key iff the id, username or email is taken |
| Users.InsertKeepsUnique | backend/models/user.js:5-9 | usernames and e-mails stay unique |
| Users.Register | backend/models/user.js:4-22 | validation, then hashing, then the unique insert |
| Users.RegisterKeepsUnique | backend/models/user.js:5-9 | registration keeps usernames and e-mails unique |
| Users.MissingUsernameRejected | backend/tests/user.test.js:38-55 | a user without username fails validation on `username` |
| Users.RegisterThenMatch | backend/models/user.js:18-27 | after registration, `matchPassword` accepts exactly the registered password |
| Users.NoDoubleHash | backend/models/user.js:19 | a save that does not modify the password does not hash it again |
| ApiFeatures.MarkOperatorsByWords | backend/utils/apiFeatures.js:14 | the global replace puts `$` before exactly the whole words `gte`, `gt`, `lte`, `lt` |
| ApiFeatures.Filter | backend/utils/apiFeatures.js:7-18 | the `find` condition is the query string minus `page`, `sort`, `limit`, `fields`, with operators marked word by word |
| ApiFeatures.FilterIgnoresExcluded | backend/utils/apiFeatures.js:9-10 | the excluded keys never influence the condition |
| ApiFeatures.SpaceSeparated | backend/utils/apiFeatures.js:21-25 | commas become spaces; a falsy value gives the default; a truthy non-string is a TypeError |
| ApiFeatures.Sort | backend/utils/apiFeatures.js:20-28 | sorts by the given fields or by `-createdAt` |
| ApiFeatures.LimitFields | backend/utils/apiFeatures.js:30-38 | selects the given fields or `-__v` |
| ApiFeatures.ParseIntText | backend/utils/apiFeatures.js:41-42 | `parseInt` reads back the decimal text of any integer |
| ApiFeatures.NoDigitNoNumber | backend/utils/apiFeatures.js:41-42 | text without a digit is NaN |
| ApiFeatures.Paginate | backend/utils/apiFeatures.js:40-50 | page and limit are never zero; skip is `(page - 1) * limit` with no clamping; both recorded |
| ApiFeatures.PaginateParameters | backend/utils/apiFeatures.js:41-42 | for every query string, page and limit are the parsed parameters when those are non-zero numbers, and 1 and 10 when parsing gives NaN or 0 |
| ApiFeatures.PaginateDefaults | backend/utils/apiFeatures.js:41-43 | without parameters, page 1 and limit 10, skip 0 |
| ApiFeatures.PageFromText | backend/utils/apiFeatures.js:41-48 | numeric parameters are used as given |
| ApiFeatures.Chain | backend/utils/apiFeatures.js:7-50 | the four steps chain, each adding its query call, the query string untouched |

## Left out

- userController.js (register, login, profile update) is not part of this model. The User schema is modelled on its own, and `Users.Register` stands for `new User(body).save()`.
- Routing and the server are not modelled. This includes the skill routes, which mount no authentication and no delete route: the skill handlers are modelled as if called with a requester.
- Database faults other than cast errors and duplicate keys, and concurrency, are left out. Each request sees one consistent collection and one clock value `now`.
- Only 24-hex-digit ObjectId strings cast. The 12-byte string form Mongoose also accepts is treated as a CastError.
- JWT signing and verification, bcrypt, `JSON.stringify`, `JSON.parse`, number-to-text conversion and the Gemini SDK call are parameters. The model name passed to the SDK is not modelled.
- Logging (`console.error`) is left out.
- The SDK call at backend/services/geminiAIService.js:48 is `genAI.model({ model: "gemini-pro" })`. The `@google/generative-ai` client documents `getGenerativeModel`, not `model`, so as written this call may throw on every request. Every generate request that passes the guards would then end in the generic 500. The `complete` parameter of `Gemini.GenerateCareerRecommendations` covers that case as a model call that always fails; the model does not decide which case holds.
- Skills.Build: the `createdAt` and `updatedAt` paths that `timestamps: true` adds are not body paths in the model. A new skill is stamped `now` for both, even if the create body gives a `createdAt`, which Mongoose would keep.
- Skills.Patch, Qualifications.Patch, Interests.Patch, Recommendations.Patch: an update body is read as plain path assignments. The handlers pass `req.body` straight to `findByIdAndUpdate`, so MongoDB update operators in it (`$inc`, `$unset`, …) would be applied, and `$inc` skips the update validators. These operators are not modelled.
- Prompt.FillDependsOnlyOnNames, Gemini.PromptDependsOnlyOnNames: the "only if" direction needs names without line breaks. A name holding a line break and the next label can shift text between lines and give the same prompt from different lines. `Prompt.SameLinesSamePrompt` gives the "if" direction for any names.
- Users.RegisterThenMatch: assumes a collision-free hash oracle (`compare(p, hash(q))` only when `p == q`). Real bcrypt ignores input beyond 72 bytes, so two passwords sharing a 72-byte prefix both match; the lemma does not cover that.
- Users.Validate: for the same reason a new user is stamped `now` for both timestamps, whatever the registration body gives.
- The prompt's read-back property is proved for `Prompt.Fill` over any template, with the fixed text as a parameter. `Gemini.PromptDependsOnlyOnNames` instantiates it for the actual text.
- Skills.Patch: Mongoose's `timestamps` sets `updatedAt` from the same clock as creation, so `now` is one value per request.
- ApiFeatures.ParseInt: exact for every integer. JavaScript rounds values beyond 2^53 to a double, which is not modelled.
- ApiFeatures.ValueText: numbers inside a query-string value go through the number-to-text parameter. Query strings only produce strings, arrays and objects.
- Auth.Authenticate: the `id` claim is a string or absent. A claim of another JSON type is not modelled.
- Three behaviours worth noting; the model follows the code:
  - Every "list own" handler sorts by `createdAt`, skills included.
  - A reply from the model that does not parse surfaces as the generic service error, not as a distinct parse error.
  - A qualification, interest or recommendation update does not advance `updatedAt`. Only the skill schema has `timestamps`.

=== FILE: apifeatures.dfy ===
/** `APIFeatures`: a wrapper around a Mongoose query and the parsed query
    string that adds filtering, sorting, field selection and paging. The
    query is modelled as the list of builder calls made on it; the query
    string as a JSON object (values are strings, arrays and objects). */
module ApiFeatures {
  import opened Common
  import opened Text
  import opened Json

  /** One call on the Mongoose query. */
  datatype Op =
    | Find(condition: Json)
    | SortBy(fields: string)
    | SelectFields(fields: string)
    | Skip(count: int)
    | Limit(count: int)

  /** The wrapper: `page` and `limit` are set by `paginate` only. */
  datatype Features = Features(query: seq<Op>, queryString: map<string, Json>, page: Option<int>, limit: Option<int>)

  function New(query: seq<Op>, queryString: map<string, Json>): (f: Features)
    ensures f.query == query && f.queryString == queryString && f.page.None? && f.limit.None?
  {
    Features(query, queryString, None, None)
  }

  const Excluded: set<string> := {"page", "sort", "limit", "fields"}
  const DefaultSort: string := "-createdAt"
  const DefaultFields: string := "-__v"
  const DefaultPage: int := 1
  const DefaultLimit: int := 10

  /** `queryString[key]`, `None` standing for `undefined`. */
  function Param(q: map<string, Json>, key: string): Option<Json>
  {
    if key in q then Some(q[key]) else None
  }

  // ---------------------------------------------------------------------
  // Operator marking: `replace(/\b(gte|gt|lte|lt)\b/g, m => `$${m}`)`

  /** A regular-expression word character (`\w`). */
  predicate IsWordChar(c: char)
  {
    ('a' <= c <= 'z') || ('A' <= c <= 'Z') || ('0' <= c <= '9') || c == '_'
  }

  /** The alternatives in the order the regular expression tries them. */
  const Operators: seq<string> := ["gte", "gt", "lte", "lt"]

  /** `s` begins with `w` and a word boundary follows it. */
  predicate WordAt(s: string, w: string)
  {
    StartsWith(s, w) && (|s| == |w| || !IsWordChar(s[|w|]))
  }

  /** The first alternative of `ops` that matches at the start of `s`. */
  function FirstOperator(s: string, ops: seq<string>): (r: Option<string>)
    ensures r.Some? ==> r.value in ops && WordAt(s, r.value)
    ensures r.None? ==> forall w :: w in ops ==> !WordAt(s, w)
  {
    if |ops| == 0 then None
    else if WordAt(s, ops[0]) then Some(ops[0])
    else FirstOperator(s, ops[1..])
  }

  /** The global replace, scanning left to right; `afterWord` says whether
      the character before `s` is a word character, so that a match needs
      a boundary on its left too. */
  function Scan(s: string, afterWord: bool): string
    decreases |s|
  {
    if |s| == 0 then ""
    else if !afterWord && FirstOperator(s, Operators).Some? then
      var w := FirstOperator(s, Operators).value;
      "$" + w + Scan(s[|w|..], true)
    else [s[0]] + Scan(s[1..], IsWordChar(s[0]))
  }

  function MarkOperators(s: string): string
  {
    Scan(s, false)
  }

  /** The longest prefix of word characters. */
  function WordRun(s: string): (w: string)
    ensures StartsWith(s, w)
    ensures forall i :: 0 <= i < |w| ==> IsWordChar(w[i])
    ensures |w| < |s| ==> !IsWordChar(s[|w|])
    decreases |s|
  {
    if |s| == 0 || !IsWordChar(s[0]) then "" else [s[0]] + WordRun(s[1..])
  }

  /** The meaning of the replace: every maximal run of word characters that
      is exactly `gte`, `gt`, `lte` or `lt` gets a `$` in front; all other
      text is kept. */
  function MarkWords(s: string): (r: string)
    decreases |s|
  {
    if |s| == 0 then ""
    else if !IsWordChar(s[0]) then [s[0]] + MarkWords(s[1..])
    else
      var w := WordRun(s);
      (if w in Operators then "$" + w else w) + MarkWords(s[|w|..])
  }

  /** Every alternative is a non-empty run of word characters. */
  predicate AllWords(ops: seq<string>)
  {
    forall i :: 0 <= i < |ops| ==> |ops[i]| > 0 && forall j :: 0 <= j < |ops[i]| ==> IsWordChar(ops[i][j])
  }

  lemma OperatorsAreWords()
    ensures AllWords(Operators)
  {
  }

  /** A word matches with a boundary after it exactly when it is the whole
      run of word characters there. */
  lemma WordAtIsRun(s: string, w: string)
    requires |w| > 0 && forall j :: 0 <= j < |w| ==> IsWordChar(w[j])
    ensures WordAt(s, w) <==> WordRun(s) == w
  {
    var r := WordRun(s);
    if WordAt(s, w) {
      assert r == s[..|r|];
    }
  }

  /** The first alternative that matches is the run of word characters at
      the start of `s`, when it is an alternative at all. */
  lemma {:induction false} FirstOperatorIsRun(s: string, ops: seq<string>)
    requires AllWords(ops)
    ensures FirstOperator(s, ops) == if WordRun(s) in ops then Some(WordRun(s)) else None
    decreases |ops|
  {
    if |ops| > 0 {
      WordAtIsRun(s, ops[0]);
      assert AllWords(ops[1..]) by {
        forall i | 0 <= i < |ops[1..]| ensures |ops[1..][i]| > 0 {
          assert ops[1..][i] == ops[i + 1];
        }
      }
      FirstOperatorIsRun(s, ops[1..]);
      assert ops == [ops[0]] + ops[1..];
    }
  }

  /** Before the first character of a word run, the scanner in the middle of
      that word copies the rest of the run unchanged. */
  lemma {:induction false} ScanCopiesRun(s: string, n: nat)
    requires n <= |s|
    requires forall i :: 0 <= i < n ==> IsWordChar(s[i])
    ensures Scan(s, true) == s[..n] + Scan(s[n..], true)
    decreases n
  {
    if n > 0 {
      var t := s[1..];
      assert forall i :: 0 <= i < n - 1 ==> IsWordChar(t[i]) by {
        forall i | 0 <= i < n - 1 ensures IsWordChar(t[i]) {
          assert t[i] == s[i + 1];
        }
      }
      ScanCopiesRun(t, n - 1);
      ScanWordStep(s);
      Glue(s, n, Scan(t, true), Scan(t[n - 1..], true));
    }
  }

  /** The sequence bookkeeping of one step of `ScanCopiesRun`. */
  lemma Glue<T>(s: seq<T>, n: nat, b: seq<T>, c: seq<T>)
    requires 0 < n <= |s| && b == s[1..][..n - 1] + c
    ensures [s[0]] + b == s[..n] + c
    ensures s[1..][n - 1..] == s[n..]
  {
    assert s[..n] == [s[0]] + s[1..][..n - 1];
  }

  /** One step of the scanner inside a word. */
  lemma ScanWordStep(s: string)
    requires |s| > 0 && IsWordChar(s[0])
    ensures Scan(s, true) == [s[0]] + Scan(s[1..], true)
  {
  }

  /** Where no word starts, nothing matches, so the scanner's flag does not
      matter. */
  lemma ScanAfterRun(s: string)
    requires |s| == 0 || !IsWordChar(s[0])
    ensures Scan(s, true) == Scan(s, false)
    ensures |s| > 0 ==> Scan(s, false) == [s[0]] + Scan(s[1..], false)
  {
    if |s| > 0 {
      OperatorsAreWords();
      FirstOperatorIsRun(s, Operators);
      assert WordRun(s) == "";
      assert "" !in Operators;
    }
  }

  /** The scanner computes the word-by-word meaning. */
  lemma {:induction false} MarkOperatorsByWords(s: string)
    ensures MarkOperators(s) == MarkWords(s)
    decreases |s|
  {
    if |s| > 0 {
      if !IsWordChar(s[0]) {
        ScanAfterRun(s);
        MarkOperatorsByWords(s[1..]);
      } else {
        var w := WordRun(s);
        MarkOperatorsByWords(s[|w|..]);
        ScanAfterRun(s[|w|..]);
        OperatorsAreWords();
        FirstOperatorIsRun(s, Operators);
        if w !in Operators {
          ScanPlainWord(s);
        }
      }
    }
  }

  /** Past the first character of a word the scanner copies the rest of
      it. */
  lemma ScanPlainWord(s: string)
    requires |s| > 0 && IsWordChar(s[0])
    ensures [s[0]] + Scan(s[1..], true) == WordRun(s) + Scan(s[|WordRun(s)|..], true)
  {
    var w := WordRun(s);
    var t := s[1..];
    assert |w| > 0;
    assert w == s[..|w|];
    forall i | 0 <= i < |w| - 1 ensures IsWordChar(t[i]) {
      assert t[i] == w[i + 1];
    }
    ScanCopiesRun(t, |w| - 1);
    assert t[..|w| - 1] == w[1..];
    assert t[|w| - 1..] == s[|w|..];
    Regroup(s[0], w[1..], Scan(s[|w|..], true), w);
  }

  /** `[a] + (x + y) == z + y` when `z == [a] + x`. */
  lemma Regroup<T>(a: T, x: seq<T>, y: seq<T>, z: seq<T>)
    requires z == [a] + x
    ensures [a] + (x + y) == z + y
  {
  }

  // ---------------------------------------------------------------------
  // The four builder steps

  /** The query string without the paging and shaping keys. */
  function Kept(q: map<string, Json>): (r: map<string, Json>)
    ensures r.Keys == q.Keys - Excluded
    ensures forall k :: k in r ==> r[k] == q[k]
  {
    map k | k in q && k !in Excluded :: q[k]
  }

  /** `filter()`: the query string minus `page`, `sort`, `limit` and
      `fields`, written as JSON text, operators marked, and parsed back as
      the `find` condition. */
  function Filter(f: Features, codec: Codec, parse: string -> Json): (r: Features)
    ensures r.queryString == f.queryString && r.page == f.page && r.limit == f.limit
    ensures r.query == f.query + [Find(parse(MarkWords(codec.stringify(JObj(Kept(f.queryString))))))]
  {
    MarkOperatorsByWords(codec.stringify(JObj(Kept(f.queryString))));
    f.(query := f.query + [Find(parse(MarkOperators(codec.stringify(JObj(Kept(f.queryString))))))])
  }

  /** The paging and shaping keys never reach the `find` condition. */
  lemma FilterIgnoresExcluded(f: Features, key: string, v: Json, codec: Codec, parse: string -> Json)
    requires key in Excluded
    ensures Filter(f.(queryString := f.queryString[key := v]), codec, parse).query == Filter(f, codec, parse).query
  {
    assert Kept(f.queryString[key := v]) == Kept(f.queryString);
  }

  /** `value.split(',').join(' ')` for a truthy parameter, the default for a
      falsy or missing one; a truthy non-string has no `split`. */
  function SpaceSeparated(v: Option<Json>, default: string): (r: Result<string, Fault>)
    ensures !Truthy(v) ==> r == Success(default)
    ensures Truthy(v) && v.value.JStr? ==> r == Success(ReplaceChar(v.value.s, ',', ' '))
    ensures Truthy(v) && !v.value.JStr? ==> r == Failure(TypeError)
  {
    if !Truthy(v) then Success(default)
    else if v.value.JStr? then
      JoinSplitIsReplace(v.value.s, ',', ' ');
      Success(Join(Split(v.value.s, ','), " "))
    else Failure(TypeError)
  }

  /** `sort()`: the comma-separated fields, or `-createdAt`. */
  function Sort(f: Features): (r: Result<Features, Fault>)
    ensures r.Success? ==>
      && r.value.queryString == f.queryString && r.value.page == f.page && r.value.limit == f.limit
      && SpaceSeparated(Param(f.queryString, "sort"), DefaultSort).Success?
      && r.value.query == f.query + [SortBy(SpaceSeparated(Param(f.queryString, "sort"), DefaultSort).value)]
    ensures r.Failure? <==> Truthy(Param(f.queryString, "sort")) && !Param(f.queryString, "sort").value.JStr?
  {
    match SpaceSeparated(Param(f.queryString, "sort"), DefaultSort)
    case Failure(e) => Failure(e)
    case Success(fields) => Success(f.(query := f.query + [SortBy(fields)]))
  }

  /** `limitFields()`: the comma-separated fields, or `-__v`. */
  function LimitFields(f: Features): (r: Result<Features, Fault>)
    ensures r.Success? ==>
      && r.value.queryString == f.queryString && r.value.page == f.page && r.value.limit == f.limit
      && SpaceSeparated(Param(f.queryString, "fields"), DefaultFields).Success?
      && r.value.query == f.query + [SelectFields(SpaceSeparated(Param(f.queryString, "fields"), DefaultFields).value)]
    ensures r.Failure? <==> Truthy(Param(f.queryString, "fields")) && !Param(f.queryString, "fields").value.JStr?
  {
    match SpaceSeparated(Param(f.queryString, "fields"), DefaultFields)
    case Failure(e) => Failure(e)
    case Success(fields) => Success(f.(query := f.query + [SelectFields(fields)]))
  }

  // ---------------------------------------------------------------------
  // parseInt

  /** `String(v)`, `None` being `undefined`; inside an array `null` is
      written as nothing. */
  function TextOf(v: Option<Json>, codec: Codec): string
  {
    if v.None? then "undefined" else ValueText(v.value, codec)
  }

  function ValueText(v: Json, codec: Codec): string
    decreases v
  {
    match v
    case JNull => "null"
    case JBool(b) => if b then "true" else "false"
    case JNum(n) => codec.numberText(n)
    case JStr(s) => s
    case JObj(_) => "[object Object]"
    case JArr(items) =>
      Join(seq(|items|, i requires 0 <= i < |items| => if items[i].JNull? then "" else ValueText(items[i], codec)), ",")
  }

  /** The value of a digit character in bases up to 36, or 36 for a
      non-digit. */
  function DigitValue(c: char): (d: nat)
    ensures d <= 36
  {
    if '0' <= c <= '9' then c as nat - '0' as nat
    else if 'a' <= c <= 'z' then c as nat - 'a' as nat + 10
    else if 'A' <= c <= 'Z' then c as nat - 'A' as nat + 10
    else 36
  }

  /** The longest prefix of digits of base `radix`. */
  function DigitRun(s: string, radix: nat): (ds: string)
    ensures StartsWith(s, ds)
    ensures forall i :: 0 <= i < |ds| ==> DigitValue(ds[i]) < radix
    ensures |ds| < |s| ==> DigitValue(s[|ds|]) >= radix
    decreases |s|
  {
    if |s| == 0 || DigitValue(s[0]) >= radix then "" else [s[0]] + DigitRun(s[1..], radix)
  }

  /** The number the digits `ds` write in base `radix`. */
  function DigitsValue(ds: string, radix: nat): nat
    decreases |ds|
  {
    if |ds| == 0 then 0 else DigitsValue(ds[..|ds| - 1], radix) * radix + DigitValue(ds[|ds| - 1])
  }

  /** Leading white space removed. */
  function TrimStart(s: string): (r: string)
    ensures |r| <= |s| && r == s[|s| - |r|..]
    ensures |r| > 0 ==> !IsJsSpace(r[0])
    ensures forall i :: 0 <= i < |s| - |r| ==> IsJsSpace(s[i])
    decreases |s|
  {
    if |s| > 0 && IsJsSpace(s[0]) then TrimStart(s[1..]) else s
  }

  /** The value of an unsigned numeral: `0x` or `0X` selects base 16, then
      as many digits as there are; `None` when there is none. */
  function Magnitude(u: string): Option<nat>
  {
    var hex := |u| >= 2 && u[0] == '0' && (u[1] == 'x' || u[1] == 'X');
    var radix := if hex then 16 else 10;
    var ds := DigitRun(if hex then u[2..] else u, radix);
    if |ds| == 0 then None else Some(DigitsValue(ds, radix))
  }

  /** `parseInt(text)` without a radix: leading white space, an optional
      sign, then a magnitude; `None` is `NaN`. Large values are exact here,
      where JavaScript rounds them to a double. */
  function ParseInt(text: string): Option<int>
  {
    var t := TrimStart(text);
    var negative := |t| > 0 && t[0] == '-';
    var unsigned := if |t| > 0 && (t[0] == '-' || t[0] == '+') then t[1..] else t;
    match Magnitude(unsigned)
    case None => None
    case Some(m) =>
      var v: int := if negative then -(m as int) else m;
      Some(v)
  }

  /** No character of `s` is a decimal digit. */
  predicate NoDecimalDigit(s: string)
  {
    forall i :: 0 <= i < |s| ==> !('0' <= s[i] <= '9')
  }

  lemma NoDecimalDigitSuffix(s: string, k: nat)
    requires NoDecimalDigit(s) && k <= |s|
    ensures NoDecimalDigit(s[k..])
  {
    forall i | 0 <= i < |s[k..]| ensures !('0' <= s[k..][i] <= '9') {
      assert s[k..][i] == s[k + i];
    }
  }

  /** A numeral without a decimal digit has no value: `0x` needs its `0`. */
  lemma MagnitudeNeedsDigit(u: string)
    requires NoDecimalDigit(u)
    ensures Magnitude(u).None?
  {
    if |u| > 0 {
      assert DigitValue(u[0]) >= 10;
    }
  }

  /** A text with no decimal digit in it is `NaN`. */
  lemma NoDigitNoNumber(text: string)
    requires NoDecimalDigit(text)
    ensures ParseInt(text).None?
  {
    var t := TrimStart(text);
    NoDecimalDigitSuffix(text, |text| - |t|);
    if |t| > 0 && (t[0] == '-' || t[0] == '+') {
      NoDecimalDigitSuffix(t, 1);
      MagnitudeNeedsDigit(t[1..]);
    } else {
      MagnitudeNeedsDigit(t);
    }
  }

  /** The decimal digits of `n`. */
  function Decimal(n: nat): (r: string)
    ensures |r| > 0
    ensures forall i :: 0 <= i < |r| ==> '0' <= r[i] <= '9'
    decreases n
  {
    if n < 10 then [('0' as int + n) as char] else Decimal(n / 10) + [('0' as int + n % 10) as char]
  }

  /** `String(n)` for an integer. */
  function IntText(n: int): string
  {
    if n < 0 then "-" + Decimal(-n) else Decimal(n)
  }

  lemma {:induction false} DecimalValue(n: nat)
    ensures DigitsValue(Decimal(n), 10) == n
    decreases n
  {
    if n >= 10 {
      DecimalValue(n / 10);
      var d := Decimal(n);
      assert d[..|d| - 1] == Decimal(n / 10);
    }
  }

  /** Digits of the radix extend the run to the end. */
  lemma {:induction false} DigitRunAll(s: string, radix: nat)
    requires forall i :: 0 <= i < |s| ==> DigitValue(s[i]) < radix
    ensures DigitRun(s, radix) == s
    decreases |s|
  {
    if |s| > 0 {
      DigitRunAll(s[1..], radix);
    }
  }

  /** A decimal numeral reads back as its value. */
  lemma MagnitudeOfDecimal(n: nat)
    ensures Magnitude(Decimal(n)) == Some(n)
  {
    var d := Decimal(n);
    DecimalValue(n);
    assert forall i :: 0 <= i < |d| ==> DigitValue(d[i]) < 10;
    DigitRunAll(d, 10);
    assert !(|d| >= 2 && d[0] == '0' && (d[1] == 'x' || d[1] == 'X'));
  }

  /** Neither a sign nor a digit is white space. */
  lemma NumeralNotSpace(c: char)
    requires c == '-' || '0' <= c <= '9'
    ensures !IsJsSpace(c)
  {
  }

  /** `parseInt` reads back what `String` writes for an integer. */
  lemma ParseIntText(n: int)
    ensures ParseInt(IntText(n)) == Some(n)
  {
    var m: nat := if n < 0 then -n else n;
    var t := IntText(n);
    MagnitudeOfDecimal(m);
    NumeralNotSpace(t[0]);
    assert TrimStart(t) == t;
    if n < 0 {
      assert t[1..] == Decimal(m);
    } else {
      assert t[0] != '-' && t[0] != '+';
    }
  }

  /** `parseInt(x) || fallback`: `NaN` and zero give the fallback. */
  function OrDefault(v: Option<int>, fallback: int): (r: int)
    ensures v.Some? && v.value != 0 ==> r == v.value
    ensures v.None? || v.value == 0 ==> r == fallback
  {
    if v.Some? && v.value != 0 then v.value else fallback
  }

  /** `paginate()`: skips `(page - 1) * limit` documents and takes `limit`,
      without clamping either, and records both on the wrapper. */
  function Paginate(f: Features, codec: Codec): (r: Features)
    ensures r.queryString == f.queryString
    ensures r.page.Some? && r.limit.Some? && r.page.value != 0 && r.limit.value != 0
    ensures r.query == f.query + [Skip((r.page.value - 1) * r.limit.value), Limit(r.limit.value)]
  {
    var page := OrDefault(ParseInt(TextOf(Param(f.queryString, "page"), codec)), DefaultPage);
    var limit := OrDefault(ParseInt(TextOf(Param(f.queryString, "limit"), codec)), DefaultLimit);
    Features(f.query + [Skip((page - 1) * limit), Limit(limit)], f.queryString, Some(page), Some(limit))
  }

  /** `parseInt(x) || default` for both parameters: a non-zero number is
      used as it is, while `NaN` and zero fall back to page 1 and limit 10. */
  lemma PaginateParameters(f: Features, codec: Codec)
    ensures var p := ParseInt(TextOf(Param(f.queryString, "page"), codec));
      && (p.Some? && p.value != 0 ==> Paginate(f, codec).page == Some(p.value))
      && (p.None? || p.value == 0 ==> Paginate(f, codec).page == Some(DefaultPage))
    ensures var l := ParseInt(TextOf(Param(f.queryString, "limit"), codec));
      && (l.Some? && l.value != 0 ==> Paginate(f, codec).limit == Some(l.value))
      && (l.None? || l.value == 0 ==> Paginate(f, codec).limit == Some(DefaultLimit))
  {
  }

  /** Without `page` and `limit` the first ten documents are taken. */
  lemma PaginateDefaults(f: Features, codec: Codec)
    requires Param(f.queryString, "page").None? && Param(f.queryString, "limit").None?
    ensures Paginate(f, codec).page == Some(DefaultPage) && Paginate(f, codec).limit == Some(DefaultLimit)
    ensures Paginate(f, codec).query == f.query + [Skip(0), Limit(DefaultLimit)]
  {
    AbsentParam(Param(f.queryString, "page"), DefaultPage, codec);
    AbsentParam(Param(f.queryString, "limit"), DefaultLimit, codec);
  }

  /** A missing parameter reads as `undefined`, which is `NaN`. */
  lemma AbsentParam(v: Option<Json>, fallback: int, codec: Codec)
    requires v.None?
    ensures OrDefault(ParseInt(TextOf(v, codec)), fallback) == fallback
  {
    LeadingLetterNoNumber("undefined");
  }

  /** A text that starts with a letter is `NaN`. */
  lemma LeadingLetterNoNumber(text: string)
    requires |text| > 0 && 'a' <= text[0] <= 'z'
    ensures ParseInt(text).None?
  {
    assert !IsJsSpace(text[0]);
    assert TrimStart(text) == text;
    assert DigitRun(text, 10) == "";
  }

  /** A parameter holding the text of a non-zero integer is that integer. */
  lemma ParamNumber(v: Option<Json>, n: int, fallback: int, codec: Codec)
    requires n != 0 && v == Some(JStr(IntText(n)))
    ensures OrDefault(ParseInt(TextOf(v, codec)), fallback) == n
  {
    ParseIntText(n);
  }

  /** `?page=3&limit=20` skips 40 documents. */
  lemma PageFromText(f: Features, page: int, limit: int, codec: Codec)
    requires page != 0 && limit != 0
    requires Param(f.queryString, "page") == Some(JStr(IntText(page)))
    requires Param(f.queryString, "limit") == Some(JStr(IntText(limit)))
    ensures Paginate(f, codec).page == Some(page) && Paginate(f, codec).limit == Some(limit)
    ensures Paginate(f, codec).query == f.query + [Skip((page - 1) * limit), Limit(limit)]
  {
    ParamNumber(Param(f.queryString, "page"), page, DefaultPage, codec);
    ParamNumber(Param(f.queryString, "limit"), limit, DefaultLimit, codec);
  }

  /** The usual chain `filter().sort().limitFields().paginate()` adds one
      call of each kind, in that order, and never alters the query string. */
  lemma Chain(query: seq<Op>, q: map<string, Json>, codec: Codec, parse: string -> Json)
    requires !Truthy(Param(q, "sort")) || Param(q, "sort").value.JStr?
    requires !Truthy(Param(q, "fields")) || Param(q, "fields").value.JStr?
    ensures var f := Filter(New(query, q), codec, parse);
      && Sort(f).Success? && LimitFields(Sort(f).value).Success?
      && var g := Paginate(LimitFields(Sort(f).value).value, codec);
      && g.queryString == q
      && |g.query| == |query| + 5
      && g.query[..|query|] == query
      && g.query[|query|].Find? && g.query[|query| + 1].SortBy? && g.query[|query| + 2].SelectFields?
      && g.query[|query| + 3].Skip? && g.query[|query| + 4].Limit?
  {
  }
}

=== FILE: auth.dfy ===
/** The authentication middleware: reads a bearer token from the
    `Authorization` header, checks it with the JWT verifier and loads the
    user it names, without the password. The verifier is a parameter; it
    reports a payload's `id` claim or one of the three kinds of failure the
    middleware tells apart. */
module Auth {
  import opened Common
  import opened Text
  import Users

  /** What `jwt.verify` gives: the `id` claim of a good token (`None` when
      the payload has none), or the name of the error it throws. */
  datatype Verdict = Verified(claim: Option<string>) | Expired | Malformed | OtherFailure

  /** `next()` with the user attached, or a JSON `{ message }` reply. */
  datatype Outcome = Proceed(user: Users.Principal) | Refuse(status: Status, message: string)

  /** The outcome, and the token handed to the verifier if it was called. */
  datatype Checked = Checked(outcome: Outcome, tokenChecked: Option<string>)

  const Prefix: string := "Bearer "
  const NoToken: string := "No token provided"
  const TokenExpired: string := "Token expired"
  const InvalidToken: string := "Invalid token"
  const AuthenticationFailed: string := "Authentication failed"
  const UserNotFound: string := "User not found"
  const ServerErrorMessage: string := "Server error"

  /** `authHeader.split(' ')[1]`: the text after `Bearer ` up to the next
      space. */
  function Token(header: string): (t: string)
    requires StartsWith(header, Prefix)
    ensures t == TakeUntil(header[|Prefix|..], ' ')
    ensures !Contains(t, ' ')
  {
    var rest := header[|Prefix|..];
    assert header == "Bearer" + [' '] + rest by {
      assert header == header[..|Prefix|] + rest;
    }
    SplitAtFirst("Bearer", ' ', rest);
    FirstPiece(rest, ' ');
    Split(header, ' ')[1]
  }

  /** A space-free token after the prefix is read back whole, whatever
      follows it after a space. */
  lemma TokenRoundTrip(t: string, trailer: Option<string>)
    requires !Contains(t, ' ')
    ensures trailer.None? ==> Token(Prefix + t) == t
    ensures trailer.Some? ==> Token(Prefix + t + " " + trailer.value) == t
  {
    if trailer.None? {
      var h := Prefix + t;
      assert h[|Prefix|..] == t;
      assert StartsWith(h, Prefix) by { assert h[..|Prefix|] == Prefix; }
      SplitNoSeparator(t, ' ');
      FirstPiece(t, ' ');
    } else {
      var h := Prefix + t + " " + trailer.value;
      assert StartsWith(h, Prefix) by { assert h[..|Prefix|] == Prefix; }
      var rest := h[|Prefix|..];
      assert rest == t + " " + trailer.value;
      assert rest[..|t|] == t;
      TakeUntilAt(rest, ' ', |t|);
    }
  }

  /** `authMiddleware`. `findById` casts the claim first: one that is not an
      ObjectId throws a CastError, which the outer `catch` turns into 500. */
  function Authenticate(header: Option<string>, verify: string -> Verdict, users: map<Id, Users.User>)
    : (r: Checked)
    ensures header.None? || !StartsWith(header.value, Prefix) ==>
      r == Checked(Refuse(Unauthorized, NoToken), None)
    ensures header.Some? && StartsWith(header.value, Prefix) ==>
      && r.tokenChecked == Some(Token(header.value))
      && var v := verify(Token(header.value));
      && (v.Expired? ==> r.outcome == Refuse(Unauthorized, TokenExpired))
      && (v.Malformed? ==> r.outcome == Refuse(Unauthorized, InvalidToken))
      && (v.OtherFailure? ==> r.outcome == Refuse(Unauthorized, AuthenticationFailed))
      && (v == Verified(None) ==> r.outcome == Refuse(Unauthorized, UserNotFound))
      && (v.Verified? && v.claim.Some? && CastObjectId(v.claim.value).None? ==>
            r.outcome == Refuse(ServerError, ServerErrorMessage))
      && (v.Verified? && v.claim.Some? && CastObjectId(v.claim.value).Some?
            && CastObjectId(v.claim.value).value !in users ==>
            r.outcome == Refuse(Unauthorized, UserNotFound))
    ensures r.outcome.Proceed? <==>
      && header.Some? && StartsWith(header.value, Prefix)
      && verify(Token(header.value)).Verified?
      && verify(Token(header.value)).claim.Some?
      && CastObjectId(verify(Token(header.value)).claim.value).Some?
      && CastObjectId(verify(Token(header.value)).claim.value).value in users
    ensures r.outcome.Proceed? ==>
      var id := CastObjectId(verify(Token(header.value)).claim.value).value;
      r.outcome.user == Users.WithoutPassword(id, users[id])
    ensures r.outcome.Refuse? ==> r.outcome.status in {Unauthorized, ServerError}
  {
    if header.None? || !StartsWith(header.value, Prefix) then Checked(Refuse(Unauthorized, NoToken), None)
    else
      var token := Token(header.value);
      var outcome :=
        match verify(token)
        case Expired => Refuse(Unauthorized, TokenExpired)
        case Malformed => Refuse(Unauthorized, InvalidToken)
        case OtherFailure => Refuse(Unauthorized, AuthenticationFailed)
        case Verified(None) => Refuse(Unauthorized, UserNotFound)
        case Verified(Some(claim)) =>
          match CastObjectId(claim)
          case None => Refuse(ServerError, ServerErrorMessage)
          case Some(id) =>
            if id in users then Proceed(Users.WithoutPassword(id, users[id])) else Refuse(Unauthorized, UserNotFound);
      Checked(outcome, Some(token))
  }

  /** A bearer token the verifier accepts for an existing user's id lets
      the request through as that user. */
  lemma SignedInUserPasses(t: string, trailer: Option<string>, id: Id, verify: string -> Verdict,
                           users: map<Id, Users.User>)
    requires !Contains(t, ' ')
    requires IsCanonicalId(id) && id in users
    requires verify(t) == Verified(Some(id))
    ensures var header := if trailer.Some? then Prefix + t + " " + trailer.value else Prefix + t;
      Authenticate(Some(header), verify, users).outcome == Proceed(Users.WithoutPassword(id, users[id]))
  {
    TokenRoundTrip(t, trailer);
    CanonicalIdCastsToItself(id);
    var header := if trailer.Some? then Prefix + t + " " + trailer.value else Prefix + t;
    assert StartsWith(header, Prefix) by { assert header[..|Prefix|] == Prefix; }
  }

  /** The verifier is consulted exactly when the header has the bearer
      form. */
  lemma VerifierOnlyForBearer(header: Option<string>, verify: string -> Verdict, users: map<Id, Users.User>)
    ensures Authenticate(header, verify, users).tokenChecked.Some? <==>
      header.Some? && StartsWith(header.value, Prefix)
  {
  }
}

=== FILE: common.dfy ===
/** Vocabulary shared by every part of the model: identifiers, results,
    response statuses, the faults a handler can report, and the way one
    request-body path is cast and validated against its schema path. */
module Common {

  /** A document identifier in its canonical form: the 24 lower-case hex
      digits an ObjectId prints as. */
  type Id = string

  /** A `Date` as milliseconds since the epoch. */
  type Time = int

  datatype Option<+T> = None | Some(value: T)

  datatype Result<+T, +E> = Success(value: T) | Failure(error: E)

  /** The HTTP statuses the handlers answer with. */
  datatype Status = Ok | Created | BadRequest | Unauthorized | Forbidden | NotFound | ServerError
  {
    function Code(): (c: nat)
      ensures 200 <= c < 600
      ensures this == Ok <==> c == 200
      ensures this == Created <==> c == 201
      ensures this == BadRequest <==> c == 400
      ensures this == Unauthorized <==> c == 401
      ensures this == Forbidden <==> c == 403
      ensures this == NotFound <==> c == 404
      ensures this == ServerError <==> c == 500
    {
      match this
      case Ok => 200
      case Created => 201
      case BadRequest => 400
      case Unauthorized => 401
      case Forbidden => 403
      case NotFound => 404
      case ServerError => 500
    }
  }

  /** What a thrown error carries into a `{ message: error.message }` body.
      Error texts produced by the database driver are not modelled; the
      fault only says which kind of error was thrown. */
  datatype Fault =
    | Invalid(paths: set<string>)   // a ValidationError naming every failing path
    | BadObjectId                   // a CastError on an `_id` lookup
    | DuplicateKey                  // an E11000 unique-index violation
    | TypeError                     // a property read on `null`
    | ServiceError(text: string)    // an Error thrown with a fixed message

  /** One stored document together with its `_id`. */
  datatype Entry<R> = Entry(id: Id, doc: R)

  /** One path of a JSON request body as Mongoose sees it after casting to
      the schema type: not sent, sent as `null`, sent with a value of the
      path's type, or sent with a value the cast rejects. */
  datatype Field<T> = Absent | Null | Given(value: T) | Uncastable

  // ---------------------------------------------------------------------
  // ObjectId casting of path parameters

  predicate IsHexDigit(c: char)
  {
    ('0' <= c <= '9') || ('a' <= c <= 'f') || ('A' <= c <= 'F')
  }

  function LowerHex(c: char): (d: char)
    requires IsHexDigit(c)
    ensures IsHexDigit(d) && !('A' <= d <= 'F')
    ensures 'A' <= c <= 'F' ==> d as int == c as int + 32
    ensures !('A' <= c <= 'F') ==> d == c
  {
    if 'A' <= c <= 'F' then (c as int + 32) as char else c
  }

  /** True of the canonical text of an ObjectId. */
  predicate IsCanonicalId(s: string)
  {
    |s| == 24 && forall i :: 0 <= i < |s| ==> IsHexDigit(s[i]) && !('A' <= s[i] <= 'F')
  }

  /** `findById(s)`: the string is cast to an ObjectId first; 24 hex digits
      in either case are accepted and name the same id. */
  function CastObjectId(s: string): (r: Option<Id>)
    ensures r.Some? <==> (|s| == 24 && forall i :: 0 <= i < |s| ==> IsHexDigit(s[i]))
    ensures r.Some? ==> IsCanonicalId(r.value) && |r.value| == |s|
    ensures r.Some? ==> forall i :: 0 <= i < |s| ==> r.value[i] == LowerHex(s[i])
  {
    if |s| == 24 && forall i :: 0 <= i < |s| ==> IsHexDigit(s[i]) then
      Some(seq(|s|, i requires 0 <= i < |s| => LowerHex(s[i])))
    else
      None
  }

  /** A canonical id casts to itself, so a path parameter that is exactly a
      stored `_id` finds that document. */
  lemma CanonicalIdCastsToItself(id: Id)
    requires IsCanonicalId(id)
    ensures CastObjectId(id) == Some(id)
  {
    var r := CastObjectId(id);
    assert r.Some?;
    assert forall i :: 0 <= i < |id| ==> r.value[i] == id[i];
    assert r.value == id;
  }

  // ---------------------------------------------------------------------
  // Casting and validating one body path

  /** Verdict on one path: either the value to store or a failure of that
      path's cast, `required` or `enum` check. */
  datatype Check<+T> = Pass(value: T) | Reject

  /** A required `String` path on a new document: missing, `null` and the
      empty string all fail the `required` validator. */
  function RequiredText(f: Field<string>): (r: Check<string>)
    ensures r.Pass? <==> (f.Given? && f.value != "")
    ensures r.Pass? ==> r.value == f.value
  {
    match f
    case Given(s) => if s == "" then Reject else Pass(s)
    case _ => Reject
  }

  /** An optional path on a new document: missing and `null` store no value. */
  function OptionalValue<T>(f: Field<T>): (r: Check<Option<T>>)
    ensures r.Reject? <==> f.Uncastable?
    ensures f.Given? ==> r == Pass(Some(f.value))
    ensures f.Absent? || f.Null? ==> r == Pass(None)
  {
    match f
    case Absent => Pass(None)
    case Null => Pass(None)
    case Given(v) => Pass(Some(v))
    case Uncastable => Reject
  }

  /** A path declared `default: Date.now`: the default applies only when the
      body leaves the path out; an explicit `null` is kept. */
  function DefaultedTime(f: Field<Time>, now: Time): (r: Check<Option<Time>>)
    ensures r.Reject? <==> f.Uncastable?
    ensures f.Absent? ==> r == Pass(Some(now))
    ensures f.Null? ==> r == Pass(None)
    ensures f.Given? ==> r == Pass(Some(f.value))
  {
    match f
    case Absent => Pass(Some(now))
    case Null => Pass(None)
    case Given(t) => Pass(Some(t))
    case Uncastable => Reject
  }

  /** A required path under `findByIdAndUpdate(..., { runValidators: true })`:
      leaving it out keeps the stored value; setting it to `null` or to the
      empty string fails `required`. */
  function PatchRequiredText(f: Field<string>, current: string): (r: Check<string>)
    ensures f.Absent? ==> r == Pass(current)
    ensures f.Given? && f.value != "" ==> r == Pass(f.value)
    ensures r.Reject? <==> (f.Null? || f.Uncastable? || f == Given(""))
  {
    match f
    case Absent => Pass(current)
    case Given(s) => if s == "" then Reject else Pass(s)
    case _ => Reject
  }

  /** An optional path under an update: `null` clears it. */
  function PatchOptional<T>(f: Field<T>, current: Option<T>): (r: Check<Option<T>>)
    ensures f.Absent? ==> r == Pass(current)
    ensures f.Null? ==> r == Pass(None)
    ensures f.Given? ==> r == Pass(Some(f.value))
    ensures r.Reject? <==> f.Uncastable?
  {
    match f
    case Absent => Pass(current)
    case Null => Pass(None)
    case Given(v) => Pass(Some(v))
    case Uncastable => Reject
  }

  /** The `userId` path under an update: it is required, so `null` fails,
      but a new owner id is accepted. */
  function PatchOwner(f: Field<Id>, current: Id): (r: Check<Id>)
    ensures f.Absent? ==> r == Pass(current)
    ensures f.Given? ==> r == Pass(f.value)
    ensures r.Reject? <==> (f.Null? || f.Uncastable?)
  {
    match f
    case Absent => Pass(current)
    case Given(v) => Pass(v)
    case _ => Reject
  }

  // ---------------------------------------------------------------------
  // What a stored document holds at one optional path

  /** A new document without a default: the given value, otherwise none. */
  predicate StoredNew<T(==)>(f: Field<T>, v: Option<T>)
  {
    && (f.Given? ==> v == Some(f.value))
    && (f.Absent? || f.Null? ==> v == None)
  }

  /** A new document at a `default: Date.now` path: the given value, none
      for an explicit `null`, `now` only when the path is left out. */
  predicate StoredDefaulted(f: Field<Time>, now: Time, v: Option<Time>)
  {
    && (f.Given? ==> v == Some(f.value))
    && (f.Null? ==> v == None)
    && (f.Absent? ==> v == Some(now))
  }

  /** An updated document: the given value, none for `null`, and the value
      before the update when the body leaves the path out. */
  predicate StoredUpdate<T(==)>(f: Field<T>, before: Option<T>, after: Option<T>)
  {
    && (f.Given? ==> after == Some(f.value))
    && (f.Null? ==> after == None)
    && (f.Absent? ==> after == before)
  }

  /** The path name when its check failed, for a ValidationError. */
  function FailedPath<T>(c: Check<T>, path: string): (r: set<string>)
    ensures path in r <==> c.Reject?
    ensures r <= {path}
  {
    if c.Reject? then {path} else {}
  }
}

=== FILE: crud.dfy ===
/** The request handlers the four resource controllers share. Each
    collection is a map from `_id` to document, and each handler takes the
    authenticated user's id and returns a status, a response body and the
    collection as it stands afterwards. A resource supplies its names (for
    the messages), how to read a document's owner, its sort fields, how to
    build a new document from a request body and how to apply an update. */
module Crud {
  import opened Common
  import opened Sorting

  /** The fixed messages a controller answers with. */
  datatype Kind = Kind(
    notFound: string,       // get, update and delete of an absent document
    viewDenied: string,     // get and list-by-user of another user's data
    updateDenied: string,
    deleteDenied: string,
    noneForUser: string,    // list-by-user with no documents
    deleted: string)        // confirmation of a delete

  /** A JSON response body: `{ message }`, `{ message: error.message }`,
      one document, or an array of documents. */
  datatype Body<R> =
    | Message(text: string)
    | Error(fault: Fault)
    | One(entry: Entry<R>)
    | Many(entries: seq<Entry<R>>)

  datatype Reply<R> = Reply(status: Status, body: Body<R>, store: map<Id, R>)

  /** `e` is a document of the collection and belongs to `owner`. */
  ghost predicate Owns<R>(store: map<Id, R>, ownerOf: R -> Id, owner: Id, e: Entry<R>)
  {
    e.id in store && e.doc == store[e.id] && ownerOf(e.doc) == owner
  }

  /** `es` lists every document of `owner` exactly once and nothing else:
      the result of `find({ userId: owner })`. */
  ghost predicate ExactlyOwned<R>(es: seq<Entry<R>>, store: map<Id, R>, ownerOf: R -> Id, owner: Id)
  {
    && DistinctIds(es)
    && (forall e :: e in es ==> Owns(store, ownerOf, owner, e))
    && (forall id :: id in store && ownerOf(store[id]) == owner ==> Entry(id, store[id]) in es)
  }

  ghost predicate OwnsNothing<R>(store: map<Id, R>, ownerOf: R -> Id, owner: Id)
  {
    forall id :: id in store ==> ownerOf(store[id]) != owner
  }

  /** `find({ userId: owner })` in the collection's natural order, which the
      model leaves unspecified. */
  method Select<R(==)>(store: map<Id, R>, ownerOf: R -> Id, owner: Id) returns (es: seq<Entry<R>>)
    ensures ExactlyOwned(es, store, ownerOf, owner)
  {
    es := [];
    var rest := store.Keys;
    while rest != {}
      invariant rest <= store.Keys
      invariant DistinctIds(es)
      invariant forall e :: e in es ==> Owns(store, ownerOf, owner, e) && e.id !in rest
      invariant forall id :: id in store && id !in rest && ownerOf(store[id]) == owner ==> Entry(id, store[id]) in es
      decreases rest
    {
      var k :| k in rest;
      if ownerOf(store[k]) == owner {
        es := es + [Entry(k, store[k])];
      }
      rest := rest - {k};
    }
  }

  /** An empty selection means the owner has no document at all. */
  lemma EmptySelection<R>(es: seq<Entry<R>>, store: map<Id, R>, ownerOf: R -> Id, owner: Id)
    requires ExactlyOwned(es, store, ownerOf, owner)
    ensures |es| == 0 <==> OwnsNothing(store, ownerOf, owner)
  {
    if |es| > 0 {
      assert Owns(store, ownerOf, owner, es[0]);
    } else {
      forall id | id in store ensures ownerOf(store[id]) != owner {
        assert !Owns(store, ownerOf, owner, Entry(id, store[id]));
      }
    }
  }

  /** `new Model(data).save()`: the document is inserted under a fresh
      `_id` unless it failed validation or the `_id` is taken. */
  function Save<R>(store: map<Id, R>, doc: Result<R, Fault>, newId: Id): (r: Result<map<Id, R>, Fault>)
    ensures r.Success? <==> doc.Success? && newId !in store
    ensures doc.Failure? ==> r.error == doc.error
    ensures doc.Success? && newId in store ==> r.error == DuplicateKey
    ensures r.Success? ==> r.value.Keys == store.Keys + {newId} && r.value[newId] == doc.value
    ensures r.Success? ==> forall k :: k in store ==> r.value[k] == store[k]
  {
    if doc.Failure? then Failure(doc.error)
    else if newId in store then Failure(DuplicateKey)
    else Success(store[newId := doc.value])
  }

  /** `create…`: a document that fails validation (or collides on `_id`)
      answers 400 and stores nothing; otherwise 201 with the new document. */
  function Create<R>(store: map<Id, R>, doc: Result<R, Fault>, newId: Id): (r: Reply<R>)
    ensures r.status == Created <==> doc.Success? && newId !in store
    ensures r.status != Created ==> r.status == BadRequest && r.store == store && r.body.Error?
    ensures r.status == Created ==> r.body == One(Entry(newId, doc.value))
    ensures r.status == Created ==> r.store.Keys == store.Keys + {newId} && r.store[newId] == doc.value
    ensures forall k :: k in store ==> k in r.store && r.store[k] == store[k]
  {
    match Save(store, doc, newId)
    case Failure(f) => Reply(BadRequest, Error(f), store)
    case Success(s) => Reply(Created, One(Entry(newId, doc.value)), s)
  }

  /** `get…ById`: a path id that is not an ObjectId throws a CastError
      (500); an absent document is 404 for every requester; a document of
      another user is 403; only the owner gets it. Nothing is changed. */
  function Get<R>(store: map<Id, R>, ownerOf: R -> Id, kind: Kind, requester: Id, rawId: string): (r: Reply<R>)
    ensures r.store == store
    ensures CastObjectId(rawId).None? ==> r.status == ServerError && r.body == Error(BadObjectId)
    ensures CastObjectId(rawId).Some? ==>
      var id := CastObjectId(rawId).value;
      && (r.status == NotFound <==> id !in store)
      && (r.status == Forbidden <==> id in store && ownerOf(store[id]) != requester)
      && (r.status == Ok <==> id in store && ownerOf(store[id]) == requester)
      && (r.status == NotFound ==> r.body == Message(kind.notFound))
      && (r.status == Forbidden ==> r.body == Message(kind.viewDenied))
      && (r.status == Ok ==> r.body == One(Entry(id, store[id])))
  {
    match CastObjectId(rawId)
    case None => Reply(ServerError, Error(BadObjectId), store)
    case Some(id) =>
      if id !in store then Reply(NotFound, Message(kind.notFound), store)
      else if ownerOf(store[id]) != requester then Reply(Forbidden, Message(kind.viewDenied), store)
      else Reply(Ok, One(Entry(id, store[id])), store)
  }

  /** `update…`: the same 404-then-403 checks as `Get` (a bad path id is
      answered 400 by this handler's catch block); then the update is
      applied with validators, and a failure is 400. Only the target
      document can change, and on every error nothing changes. */
  function Update<R>(store: map<Id, R>, ownerOf: R -> Id, kind: Kind, requester: Id, rawId: string,
                     patch: R -> Result<R, Fault>): (r: Reply<R>)
    ensures r.store.Keys == store.Keys
    ensures r.status != Ok ==> r.store == store
    ensures CastObjectId(rawId).None? ==> r.status == BadRequest && r.body == Error(BadObjectId)
    ensures CastObjectId(rawId).Some? ==>
      var id := CastObjectId(rawId).value;
      && (r.status == NotFound <==> id !in store)
      && (r.status == Forbidden <==> id in store && ownerOf(store[id]) != requester)
      && (r.status == NotFound ==> r.body == Message(kind.notFound))
      && (r.status == Forbidden ==> r.body == Message(kind.updateDenied))
      && (id in store && ownerOf(store[id]) == requester ==>
            if patch(store[id]).Success? then
              && r.status == Ok
              && r.store == store[id := patch(store[id]).value]
              && r.body == One(Entry(id, patch(store[id]).value))
            else r.status == BadRequest && r.body == Error(patch(store[id]).error))
    ensures forall k :: k in store && (CastObjectId(rawId).None? || k != CastObjectId(rawId).value) ==>
      r.store[k] == store[k]
  {
    match CastObjectId(rawId)
    case None => Reply(BadRequest, Error(BadObjectId), store)
    case Some(id) =>
      if id !in store then Reply(NotFound, Message(kind.notFound), store)
      else if ownerOf(store[id]) != requester then Reply(Forbidden, Message(kind.updateDenied), store)
      else
        match patch(store[id])
        case Failure(f) => Reply(BadRequest, Error(f), store)
        case Success(d) => Reply(Ok, One(Entry(id, d)), store[id := d])
  }

  /** `delete…`: the same checks as `Get`; on success exactly the target
      document is removed and the confirmation message is returned. */
  function Delete<R>(store: map<Id, R>, ownerOf: R -> Id, kind: Kind, requester: Id, rawId: string): (r: Reply<R>)
    ensures r.status != Ok ==> r.store == store
    ensures CastObjectId(rawId).None? ==> r.status == ServerError && r.body == Error(BadObjectId)
    ensures CastObjectId(rawId).Some? ==>
      var id := CastObjectId(rawId).value;
      && (r.status == NotFound <==> id !in store)
      && (r.status == Forbidden <==> id in store && ownerOf(store[id]) != requester)
      && (r.status == Ok <==> id in store && ownerOf(store[id]) == requester)
      && (r.status == NotFound ==> r.body == Message(kind.notFound))
      && (r.status == Forbidden ==> r.body == Message(kind.deleteDenied))
      && (r.status == Ok ==> r.body == Message(kind.deleted) && r.store == store - {id})
    ensures forall k :: k in r.store ==> k in store && r.store[k] == store[k]
  {
    match CastObjectId(rawId)
    case None => Reply(ServerError, Error(BadObjectId), store)
    case Some(id) =>
      if id !in store then Reply(NotFound, Message(kind.notFound), store)
      else if ownerOf(store[id]) != requester then Reply(Forbidden, Message(kind.deleteDenied), store)
      else Reply(Ok, Message(kind.deleted), store - {id})
  }

  /** `getAll…`: every document of the requester, newest first by the
      resource's `createdAt`. */
  method ListOwn<R(==)>(store: map<Id, R>, ownerOf: R -> Id, createdKey: R -> SortKey, requester: Id)
    returns (r: Reply<R>)
    ensures r.status == Ok && r.store == store && r.body.Many?
    ensures ExactlyOwned(r.body.entries, store, ownerOf, requester)
    ensures SortedDesc(r.body.entries, createdKey)
  {
    var es := Select(store, ownerOf, requester);
    r := Reply(Ok, Many(Sorted(es, store, ownerOf, requester, createdKey)), store);
  }

  /** The selection in `sort({ field: -1 })` order; still exactly the
      owner's documents. */
  function Sorted<R(==)>(es: seq<Entry<R>>, store: map<Id, R>, ownerOf: R -> Id, owner: Id, key: R -> SortKey)
    : (r: seq<Entry<R>>)
    requires ExactlyOwned(es, store, ownerOf, owner)
    ensures ExactlyOwned(r, store, ownerOf, owner)
    ensures SortedDesc(r, key)
    ensures |r| == |es|
  {
    var r := Sort(es, key);
    SortIsSorted(es, key);
    SortDistinct(es, key);
    assert forall e :: e in r ==> e in es by {
      forall e | e in r ensures e in es {
        assert e in multiset(r);
      }
    }
    assert forall e :: e in es ==> e in r by {
      forall e | e in es ensures e in r {
        assert e in multiset(es);
      }
    }
    assert |r| == |multiset(r)| == |multiset(es)| == |es|;
    r
  }

  /** `get…ByUserId`: a path user id other than the requester's own is 403
      before anything is read; an owner with no documents is 404; otherwise
      all of them in the resource's by-user order. */
  method ListByUser<R(==)>(store: map<Id, R>, ownerOf: R -> Id, key: R -> SortKey, kind: Kind,
                           requester: Id, userParam: string)
    returns (r: Reply<R>)
    ensures r.store == store
    ensures userParam != requester ==> r == Reply(Forbidden, Message(kind.viewDenied), store)
    ensures userParam == requester ==>
      && (r.status == NotFound <==> OwnsNothing(store, ownerOf, requester))
      && (r.status == NotFound ==> r.body == Message(kind.noneForUser))
      && (r.status != NotFound ==>
            && r.status == Ok && r.body.Many? && |r.body.entries| > 0
            && ExactlyOwned(r.body.entries, store, ownerOf, requester)
            && SortedDesc(r.body.entries, key))
  {
    if userParam != requester {
      return Reply(Forbidden, Message(kind.viewDenied), store);
    }
    var es := Select(store, ownerOf, requester);
    EmptySelection(es, store, ownerOf, requester);
    if |es| == 0 {
      return Reply(NotFound, Message(kind.noneForUser), store);
    }
    r := Reply(Ok, Many(Sorted(es, store, ownerOf, requester, key)), store);
  }

  // ---------------------------------------------------------------------
  // How the handlers compose

  /** Whether a `Get` is 404 does not depend on who asks: existence is
      checked before ownership. An update, whatever its body, is 404
      exactly when a delete of the same id is. */
  lemma NotFoundForEveryone<R>(store: map<Id, R>, ownerOf: R -> Id, kind: Kind, a: Id, b: Id, rawId: string,
                               patch: R -> Result<R, Fault>)
    ensures (Get(store, ownerOf, kind, a, rawId).status == NotFound) == (Get(store, ownerOf, kind, b, rawId).status == NotFound)
    ensures (Update(store, ownerOf, kind, a, rawId, patch).status == NotFound)
         == (Delete(store, ownerOf, kind, b, rawId).status == NotFound)
  {
  }

  /** A document created by `owner` is then readable by `owner` under its
      new `_id` and forbidden to everybody else. */
  lemma CreateThenGet<R>(store: map<Id, R>, ownerOf: R -> Id, kind: Kind, doc: Result<R, Fault>, newId: Id, other: Id)
    requires doc.Success? && newId !in store
    requires IsCanonicalId(newId)
    requires other != ownerOf(doc.value)
    ensures var s := Create(store, doc, newId).store;
      && Get(s, ownerOf, kind, ownerOf(doc.value), newId) == Reply(Ok, One(Entry(newId, doc.value)), s)
      && Get(s, ownerOf, kind, other, newId).status == Forbidden
  {
    CanonicalIdCastsToItself(newId);
  }

  /** After a successful delete the same request for the document is 404. */
  lemma DeleteThenGet<R>(store: map<Id, R>, ownerOf: R -> Id, kind: Kind, requester: Id, rawId: string, anyone: Id)
    requires Delete(store, ownerOf, kind, requester, rawId).status == Ok
    ensures Get(Delete(store, ownerOf, kind, requester, rawId).store, ownerOf, kind, anyone, rawId).status == NotFound
  {
  }

  /** After a successful update, reading the document back as its (possibly
      new) owner returns the updated document. */
  lemma UpdateThenGet<R>(store: map<Id, R>, ownerOf: R -> Id, kind: Kind, requester: Id, rawId: string,
                         patch: R -> Result<R, Fault>)
    requires Update(store, ownerOf, kind, requester, rawId, patch).status == Ok
    ensures var u := Update(store, ownerOf, kind, requester, rawId, patch);
      Get(u.store, ownerOf, kind, ownerOf(u.body.entry.doc), rawId) == Reply(Ok, u.body, u.store)
  {
  }
}

=== FILE: gemini.dfy ===
/** The Gemini service: its fixed prompt text and the error handling
    around the model call. The call itself and `JSON.parse` are
    parameters: `complete` is `generateContent(prompt)` followed by
    `response.text()` (a `Failure` being any thrown error), and `parse` is
    `JSON.parse` (`None` when it throws). */
module Gemini {
  import opened Common
  import opened Text
  import opened Json
  import opened Prompt

  /** `n` spaces: the template literal's indentation. */
  function Indent(n: nat): (r: string)
    ensures |r| == n && forall i :: 0 <= i < n ==> r[i] == ' '
  {
    if n == 0 then "" else " " + Indent(n - 1)
  }

  /** The fixed text of the prompt template, line by line, with the
      template's own indentation. */
  const Head: string := "Based on the following user data:\n" + Indent(12) + "Skills: "
  const QualificationsLabel: string := Indent(12) + "Qualifications: "
  const InterestsLabel: string := Indent(12) + "Interests: "

  function SampleCourse(n: string): string
  {
    "{\"title\": " + "\"Course Title " + n + "\", " + "\"link\": " + "\"Course Link " + n + "\"}"
  }

  /** One of the three sample entries of the requested JSON structure. */
  function SampleEntry(n: string, last: bool): (r: seq<string>)
    ensures |r| == 8
  {
    [ Indent(20) + "{",
      Indent(24) + "\"career\": \"Career Recommendation " + n + "\",",
      Indent(24) + "\"explanation\": " + "\"Explanation for " + "Career Recommendation " + n + "\",",
      Indent(24) + "\"courses\": [",
      Indent(28) + SampleCourse("1") + ",",
      Indent(28) + SampleCourse("2"),
      Indent(24) + "]",
      Indent(20) + (if last then "}" else "},") ]
  }

  /** The lines after the Interests line: a blank line, the request, and
      the sample structure. */
  const InstructionLines: seq<string> :=
    [ "",
      Indent(12) + "Provide 3 career " + "recommendations " + "with a brief " + "explanation for " + "each, and suggest "
        + "relevant online " + "courses for each " + "career.",
      Indent(12) + "Format the " + "response as a " + "JSON object with " + "the following " + "structure:",
      Indent(12) + "{",
      Indent(16) + "\"recommendations\": [" ]
    + SampleEntry("1", false) + SampleEntry("2", false) + SampleEntry("3", true)
    + [ Indent(16) + "]",
        Indent(12) + "}" ]

  /** The error every failure of the service is reported as. */
  const GenericFailure: string := "Failed to generate career recommendations. Please try again later."

  /** The error thrown inside the service when the reply is not JSON; it
      never leaves the service. */
  const ParseFailure: string := "Failed to parse Gemini AI response. Check the raw response for errors."

  /** The service's template. */
  const CareerPrompt := Template(Head, QualificationsLabel, InterestsLabel, Join(InstructionLines, "\n"))

  /** The prompt the service sends. */
  function BuildPrompt(d: UserData): (p: string)
  {
    Fill(CareerPrompt, d)
  }

  /** The service's prompt in particular. */
  lemma PromptDependsOnlyOnNames(d1: UserData, d2: UserData)
    requires SingleLineNames(d1) && SingleLineNames(d2)
    ensures BuildPrompt(d1) == BuildPrompt(d2) <==>
      && SkillsLine(d1) == SkillsLine(d2)
      && QualificationsLine(d1) == QualificationsLine(d2)
      && InterestsLine(d1) == InterestsLine(d2)
  {
    FillDependsOnlyOnNames(CareerPrompt, d1, d2);
  }

  /** `generateCareerRecommendations(userData)`: the parsed reply, unchanged,
      or the one generic error, whatever went wrong. */
  function GenerateCareerRecommendations(d: UserData, complete: string -> Result<string, string>,
                                         parse: string -> Option<Json>): (r: Result<Json, string>)
    ensures r.Failure? ==> r.error == GenericFailure
    ensures r.Success? <==>
      complete(BuildPrompt(d)).Success? && parse(complete(BuildPrompt(d)).value).Some?
    ensures r.Success? ==> parse(complete(BuildPrompt(d)).value) == Some(r.value)
  {
    match complete(BuildPrompt(d))
    case Failure(_) => Failure(GenericFailure)
    case Success(text) =>
      var parsed := match parse(text)
        case None => Failure(ParseFailure)
        case Some(v) => Success(v);
      if parsed.Failure? then Failure(GenericFailure) else parsed
  }

  /** The user's identity never reaches the model: changing the profile
      changes nothing the service does. */
  lemma IdentityNeverSent(d: UserData, who: Profile, complete: string -> Result<string, string>,
                          parse: string -> Option<Json>)
    ensures GenerateCareerRecommendations(d.(user := who), complete, parse)
         == GenerateCareerRecommendations(d, complete, parse)
  {
  }

  /** A reply that is not JSON surfaces as the generic error, not as the
      parse error thrown inside. */
  lemma UnparsableReplyIsGeneric(d: UserData, complete: string -> Result<string, string>,
                                 parse: string -> Option<Json>)
    requires complete(BuildPrompt(d)).Success? && parse(complete(BuildPrompt(d)).value).None?
    ensures GenerateCareerRecommendations(d, complete, parse) == Failure(GenericFailure)
    ensures GenericFailure != ParseFailure
  {
  }
}

=== FILE: generate.dfy ===
/** `generateRecommendations`: the guard chain (403, 404, 400), the call to
    the Gemini service, and the loop that turns each element of the reply
    into a saved Recommendation, one save after another with no rollback. */
module Generate {
  import opened Common
  import opened Json
  import opened Recommendations
  import Skills
  import Qualifications
  import Interests
  import Users
  import Crud
  import Prompt
  import Gemini

  /** The collections the handler reads and writes. */
  datatype Db = Db(
    users: map<Id, Users.User>,
    skills: map<Id, Skills.Skill>,
    qualifications: map<Id, Qualifications.Qualification>,
    interests: map<Id, Interests.Interest>,
    recommendations: map<Id, Recommendation>)

  const ModelName: string := "Gemini Pro"
  const DefaultConfidence: real := 0.85
  const OtherUserMessage: string := "Access denied: Cannot generate recommendations for other users"
  const UserNotFoundMessage: string := "User not found"
  const InsufficientDataMessage: string := "Insufficient data. Please add your skills, qualifications, or interests first."
  const GeneratedMessage: string := "Career recommendations generated successfully"
  const FailedMessage: string := "Failed to generate recommendations"

  /** `rec[key]` for a non-null element, `None` standing for `undefined`. */
  function Lookup(rec: Json, key: string): Option<Json>
  {
    if rec.JObj? && key in rec.fields then Some(rec.fields[key]) else None
  }

  /** The object literal built for one element of the reply, before the
      schema drops the keys it does not declare. */
  datatype Draft = Draft(body: RecommendationBody, confidenceScore: Json, skillGaps: Json)

  /** The literal of the loop body. Every property read goes through `rec`,
      so a `null` element throws a TypeError at its first read. */
  function DraftOf(rec: Json, userId: Id, codec: Codec): (r: Result<Draft, Fault>)
    ensures r.Failure? <==> rec.JNull?
    ensures r.Failure? ==> r.error == TypeError
    ensures r.Success? ==>
      && r.value.body.userId == Given(userId)
      && r.value.body.careerSuggestion == StringField(Lookup(rec, "career"), codec)
      && r.value.body.justification == StringField(Lookup(rec, "explanation"), codec)
      && (Truthy(Lookup(rec, "courses")) ==>
            r.value.body.courseLink == Given(codec.stringify(Lookup(rec, "courses").value)))
      && (!Truthy(Lookup(rec, "courses")) ==> r.value.body.courseLink == Null)
      && r.value.body.aiModelUsed == Given(ModelName)
      && r.value.body.createdAt == Absent && r.value.body.updatedAt == Absent
      && (Truthy(Lookup(rec, "confidence")) ==> r.value.confidenceScore == Lookup(rec, "confidence").value)
      && (!Truthy(Lookup(rec, "confidence")) ==> r.value.confidenceScore == JNum(DefaultConfidence))
      && (Truthy(Lookup(rec, "skillGaps")) ==> r.value.skillGaps == Lookup(rec, "skillGaps").value)
      && (!Truthy(Lookup(rec, "skillGaps")) ==> r.value.skillGaps == JArr([]))
  {
    match Get(rec, "career")
    case Failure(f) => Failure(f)
    case Success(career) =>
      var explanation := Get(rec, "explanation").value;
      var courses := Get(rec, "courses").value;
      var confidence := Get(rec, "confidence").value;
      var gaps := Get(rec, "skillGaps").value;
      Success(Draft(
        RecommendationBody(
          Given(userId),
          StringField(career, codec),
          if Truthy(courses) then Given(codec.stringify(courses.value)) else Null,
          StringField(explanation, codec),
          Given(ModelName),
          Absent,
          Absent),
        if Truthy(confidence) then confidence.value else JNum(DefaultConfidence),
        if Truthy(gaps) then gaps.value else JArr([])))
  }

  /** The document one element becomes, or the error its save throws before
      reaching the database. */
  function RecordFor(rec: Json, userId: Id, now: Time, codec: Codec): (r: Result<Recommendation, Fault>)
    ensures r.Success? ==> r.value.userId == userId && r.value.aiModelUsed == Some(ModelName)
    ensures r.Success? ==> !rec.JNull? && StringField(Lookup(rec, "career"), codec).Given?
    ensures r.Success? ==> r.value.careerSuggestion == StringField(Lookup(rec, "career"), codec).value
    ensures r.Success? ==> r.value.createdAt == Some(now)
    ensures !rec.JNull? && StringField(Lookup(rec, "career"), codec) == Absent ==>
      r.Failure? && r.error.Invalid? && "careerSuggestion" in r.error.paths
  {
    match DraftOf(rec, userId, codec)
    case Failure(f) => Failure(f)
    case Success(draft) => Build(draft.body, userId, now)
  }

  /** Two elements that differ only in `confidence` and `skillGaps` give the
      same document: the schema has no place for either. */
  lemma ConfidenceAndGapsNotStored(fields: map<string, Json>, c1: Json, c2: Json, g1: Json, g2: Json,
                                   userId: Id, now: Time, codec: Codec)
    ensures RecordFor(JObj(fields["confidence" := c1]["skillGaps" := g1]), userId, now, codec)
         == RecordFor(JObj(fields["confidence" := c2]["skillGaps" := g2]), userId, now, codec)
  {
    var a := JObj(fields["confidence" := c1]["skillGaps" := g1]);
    var b := JObj(fields["confidence" := c2]["skillGaps" := g2]);
    assert Lookup(a, "career") == Lookup(b, "career");
    assert Lookup(a, "explanation") == Lookup(b, "explanation");
    assert Lookup(a, "courses") == Lookup(b, "courses");
  }

  // ---------------------------------------------------------------------
  // The save loop

  /** Where the loop stopped: the collection afterwards, the documents saved
      in order, and the error that ended it early, if any. */
  datatype Saved<R> = Saved(store: map<Id, R>, saved: seq<Entry<R>>, failure: Option<Fault>)

  /** `for (const rec of elems) { ... await recommendation.save(); ... }`:
      element `k` (counting from `base`) becomes `make(elems[k])` and is
      saved under `newId(base + k)`; the first error ends the loop and keeps
      what was saved before it. */
  function SaveAll<T, R>(store: map<Id, R>, elems: seq<T>, make: T -> Result<R, Fault>, base: nat,
                         newId: nat -> Id): (r: Saved<R>)
    ensures |r.saved| <= |elems|
    ensures r.failure.None? <==> |r.saved| == |elems|
    ensures forall i :: 0 <= i < |r.saved| ==>
      r.saved[i].id == newId(base + i) && make(elems[i]) == Success(r.saved[i].doc)
    decreases |elems|
  {
    if |elems| == 0 then Saved(store, [], None)
    else
      match Crud.Save(store, make(elems[0]), newId(base))
      case Failure(f) => Saved(store, [], Some(f))
      case Success(next) =>
        var e := Entry(newId(base), next[newId(base)]);
        var rest := SaveAll(next, elems[1..], make, base + 1, newId);
        Saved(rest.store, [e] + rest.saved, rest.failure)
  }

  /** No rollback: what was in the collection stays, and every saved
      document is in it under an id that was not. */
  lemma {:induction false} SaveAllKeeps<T, R>(store: map<Id, R>, elems: seq<T>, make: T -> Result<R, Fault>,
                                              base: nat, newId: nat -> Id)
    ensures var r := SaveAll(store, elems, make, base, newId);
      && (forall k :: k in store ==> k in r.store && r.store[k] == store[k])
      && (forall i :: 0 <= i < |r.saved| ==>
            r.saved[i].id !in store && r.saved[i].id in r.store && r.store[r.saved[i].id] == r.saved[i].doc)
    decreases |elems|
  {
    if |elems| > 0 && Crud.Save(store, make(elems[0]), newId(base)).Success? {
      var next := Crud.Save(store, make(elems[0]), newId(base)).value;
      SaveAllKeeps(next, elems[1..], make, base + 1, newId);
      var rest := SaveAll(next, elems[1..], make, base + 1, newId);
      assert SaveAll(store, elems, make, base, newId).saved == [Entry(newId(base), next[newId(base)])] + rest.saved;
    }
  }

  /** The loop adds nothing to the collection but the documents it reports
      as saved. */
  lemma {:induction false} SaveAllAddsOnlySaved<T, R>(store: map<Id, R>, elems: seq<T>,
                                                      make: T -> Result<R, Fault>, base: nat, newId: nat -> Id)
    ensures var r := SaveAll(store, elems, make, base, newId);
      forall k :: k in r.store ==> k in store || exists i :: 0 <= i < |r.saved| && r.saved[i].id == k
    decreases |elems|
  {
    if |elems| > 0 && Crud.Save(store, make(elems[0]), newId(base)).Success? {
      var next := Crud.Save(store, make(elems[0]), newId(base)).value;
      SaveAllAddsOnlySaved(next, elems[1..], make, base + 1, newId);
      var r := SaveAll(store, elems, make, base, newId);
      var rest := SaveAll(next, elems[1..], make, base + 1, newId);
      assert r.saved == [Entry(newId(base), next[newId(base)])] + rest.saved;
      forall k | k in r.store ensures k in store || exists i :: 0 <= i < |r.saved| && r.saved[i].id == k {
        if k !in store && k != newId(base) {
          var i :| 0 <= i < |rest.saved| && rest.saved[i].id == k;
          assert r.saved[i + 1].id == k;
        } else if k !in store {
          assert r.saved[0].id == k;
        }
      }
    }
  }

  /** Index of the first element `make` rejects, or the number of elements
      when there is none. */
  function FirstRejected<T, R>(elems: seq<T>, make: T -> Result<R, Fault>): (k: nat)
    ensures k <= |elems|
    ensures forall i :: 0 <= i < k ==> make(elems[i]).Success?
    ensures k < |elems| ==> make(elems[k]).Failure?
  {
    if |elems| == 0 then 0
    else if make(elems[0]).Failure? then 0
    else 1 + FirstRejected(elems[1..], make)
  }

  /** With fresh, distinct ids the loop saves exactly the elements before
      the first rejected one and fails there with that element's error. */
  lemma {:induction false} SavesUpToFirstRejected<T, R>(store: map<Id, R>, elems: seq<T>,
                                                       make: T -> Result<R, Fault>, base: nat, newId: nat -> Id)
    requires forall j :: j >= base ==> newId(j) !in store
    requires forall i, j :: newId(i) == newId(j) ==> i == j
    ensures var r := SaveAll(store, elems, make, base, newId);
      var k := FirstRejected(elems, make);
      && |r.saved| == k
      && (k < |elems| ==> r.failure == Some(make(elems[k]).error))
    decreases |elems|
  {
    if |elems| > 0 && make(elems[0]).Success? {
      var next := store[newId(base) := make(elems[0]).value];
      forall j | j >= base + 1 ensures newId(j) !in next {
        assert newId(j) != newId(base);
      }
      SavesUpToFirstRejected(next, elems[1..], make, base + 1, newId);
      var k := FirstRejected(elems[1..], make);
      if k < |elems[1..]| {
        assert elems[1..][k] == elems[1 + k];
      }
    }
  }

  // ---------------------------------------------------------------------
  // The handler

  /** The elements the loop walks: `aiResponse.recommendations` when it is
      an array, nothing otherwise; reading it off `null` throws. */
  function Elements(ai: Json): (r: Result<seq<Json>, Fault>)
    ensures r.Failure? <==> ai.JNull?
    ensures r.Failure? ==> r.error == TypeError
    ensures r.Success? && Lookup(ai, "recommendations").Some? && Lookup(ai, "recommendations").value.JArr? ==>
      r.value == Lookup(ai, "recommendations").value.items
    ensures r.Success? && !(Lookup(ai, "recommendations").Some? && Lookup(ai, "recommendations").value.JArr?) ==>
      r.value == []
  {
    match Get(ai, "recommendations")
    case Failure(f) => Failure(f)
    case Success(recs) =>
      if Truthy(recs) && recs.value.JArr? then Success(recs.value.items) else Success([])
  }

  /** The JSON body of a reply. */
  datatype Answer =
    | Note(message: string)
    | Failed(message: string, error: Fault)
    | Done(message: string, recommendations: seq<Entry<Recommendation>>, aiResponse: Json)

  datatype GenerateReply = GenerateReply(status: Status, body: Answer, recommendations: map<Id, Recommendation>)

  /** The identity fields copied from the user document. */
  function ProfileOf(u: Users.User): (p: Prompt.Profile)
    ensures p.username == u.username && p.email == u.email
    ensures p.firstName == u.firstName && p.lastName == u.lastName
  {
    Prompt.Profile(u.username, u.email, u.firstName, u.lastName)
  }

  function Docs<R>(es: seq<Entry<R>>): (r: seq<R>)
    ensures |r| == |es| && forall i :: 0 <= i < |es| ==> r[i] == es[i].doc
  {
    seq(|es|, i requires 0 <= i < |es| => es[i].doc)
  }

  /** The user has no skill, qualification or interest. */
  ghost predicate NoData(db: Db, user: Id)
  {
    && Crud.OwnsNothing(db.skills, Skills.Owner, user)
    && Crud.OwnsNothing(db.qualifications, Qualifications.Owner, user)
    && Crud.OwnsNothing(db.interests, Interests.Owner, user)
  }

  /** `d` lists exactly `user`'s documents of one collection. */
  ghost predicate ListsExactly<R>(docs: seq<R>, store: map<Id, R>, ownerOf: R -> Id, user: Id)
  {
    && (forall x :: x in docs ==> ownerOf(x) == user && exists id :: id in store && store[id] == x)
    && (forall id :: id in store && ownerOf(store[id]) == user ==> store[id] in docs)
  }

  /** `generateRecommendations`. The service is `complete` (the model call)
      and `parse` (reading its reply as JSON); `sent` is the data handed to
      the service, `None` when it is never called. */
  method GenerateRecommendations(db: Db, requester: Id, userParam: string, now: Time, newId: nat -> Id,
                                 codec: Codec, complete: string -> Result<string, string>,
                                 parse: string -> Option<Json>)
    returns (r: GenerateReply, sent: Option<Prompt.UserData>)
    ensures userParam != requester ==>
      r == GenerateReply(Forbidden, Note(OtherUserMessage), db.recommendations) && sent.None?
    ensures userParam == requester && requester !in db.users ==>
      r == GenerateReply(NotFound, Note(UserNotFoundMessage), db.recommendations) && sent.None?
    ensures userParam == requester && requester in db.users && NoData(db, requester) ==>
      r == GenerateReply(BadRequest, Note(InsufficientDataMessage), db.recommendations) && sent.None?
    ensures sent.Some? <==> userParam == requester && requester in db.users && !NoData(db, requester)
    ensures sent.Some? ==>
      && sent.value.user == ProfileOf(db.users[requester])
      && ListsExactly(sent.value.skills, db.skills, Skills.Owner, requester)
      && ListsExactly(sent.value.qualifications, db.qualifications, Qualifications.Owner, requester)
      && ListsExactly(sent.value.interests, db.interests, Interests.Owner, requester)
    ensures sent.Some? && Gemini.GenerateCareerRecommendations(sent.value, complete, parse).Failure? ==>
      r == GenerateReply(ServerError, Failed(FailedMessage, ServiceError(Gemini.GenericFailure)), db.recommendations)
    ensures sent.Some? && Gemini.GenerateCareerRecommendations(sent.value, complete, parse).Success? ==>
      var ai := Gemini.GenerateCareerRecommendations(sent.value, complete, parse).value;
      && (ai.JNull? ==> r == GenerateReply(ServerError, Failed(FailedMessage, TypeError), db.recommendations))
      && (!ai.JNull? ==>
            var s := SaveAll(db.recommendations, Elements(ai).value, rec => RecordFor(rec, requester, now, codec), 0, newId);
            && r.recommendations == s.store
            && (s.failure.None? ==> r.status == Created && r.body == Done(GeneratedMessage, s.saved, ai))
            && (s.failure.Some? ==> r.status == ServerError && r.body == Failed(FailedMessage, s.failure.value))
            && (Elements(ai).value == [] ==>
                  r == GenerateReply(Created, Done(GeneratedMessage, [], ai), db.recommendations)))
  {
    sent := None;
    if userParam != requester {
      return GenerateReply(Forbidden, Note(OtherUserMessage), db.recommendations), sent;
    }
    if requester !in db.users {
      return GenerateReply(NotFound, Note(UserNotFoundMessage), db.recommendations), sent;
    }
    var skills := Crud.Select(db.skills, Skills.Owner, requester);
    var qualifications := Crud.Select(db.qualifications, Qualifications.Owner, requester);
    var interests := Crud.Select(db.interests, Interests.Owner, requester);
    Crud.EmptySelection(skills, db.skills, Skills.Owner, requester);
    Crud.EmptySelection(qualifications, db.qualifications, Qualifications.Owner, requester);
    Crud.EmptySelection(interests, db.interests, Interests.Owner, requester);
    if |skills| == 0 && |qualifications| == 0 && |interests| == 0 {
      return GenerateReply(BadRequest, Note(InsufficientDataMessage), db.recommendations), sent;
    }
    var data := Prompt.UserData(Docs(skills), Docs(qualifications), Docs(interests), ProfileOf(db.users[requester]));
    ListedDocs(skills, db.skills, Skills.Owner, requester);
    ListedDocs(qualifications, db.qualifications, Qualifications.Owner, requester);
    ListedDocs(interests, db.interests, Interests.Owner, requester);
    sent := Some(data);
    match Gemini.GenerateCareerRecommendations(data, complete, parse)
    case Failure(message) =>
      r := GenerateReply(ServerError, Failed(FailedMessage, ServiceError(message)), db.recommendations);
    case Success(ai) =>
      match Elements(ai)
      case Failure(f) =>
        r := GenerateReply(ServerError, Failed(FailedMessage, f), db.recommendations);
      case Success(elems) =>
        var s := SaveAll(db.recommendations, elems, rec => RecordFor(rec, requester, now, codec), 0, newId);
        if s.failure.None? {
          r := GenerateReply(Created, Done(GeneratedMessage, s.saved, ai), s.store);
        } else {
          r := GenerateReply(ServerError, Failed(FailedMessage, s.failure.value), s.store);
        }
  }

  /** The documents of a selection list exactly the owner's documents. */
  lemma ListedDocs<R>(es: seq<Entry<R>>, store: map<Id, R>, ownerOf: R -> Id, user: Id)
    requires Crud.ExactlyOwned(es, store, ownerOf, user)
    ensures ListsExactly(Docs(es), store, ownerOf, user)
  {
    var d := Docs(es);
    forall x | x in d ensures ownerOf(x) == user && exists id :: id in store && store[id] == x {
      var i :| 0 <= i < |d| && d[i] == x;
      assert Crud.Owns(store, ownerOf, user, es[i]) by { assert es[i] in es; }
    }
    forall id | id in store && ownerOf(store[id]) == user ensures store[id] in d {
      assert Crud.Owns(store, ownerOf, user, Entry(id, store[id]));
      var i :| 0 <= i < |es| && es[i] == Entry(id, store[id]);
      assert d[i] == store[id];
    }
  }
}

=== FILE: interests.dfy ===
/** The Interest schema and the interest controller. Like Qualification,
    the schema declares `createdAt` and `updatedAt` itself, with
    `default: Date.now`, and has no `timestamps` option. */
module Interests {
  import opened Common
  import opened Sorting
  import Crud

  datatype Interest = Interest(
    userId: Id,
    interestName: string,
    description: Option<string>,
    createdAt: Option<Time>,
    updatedAt: Option<Time>)

  /** The schema paths of a request body. On create, undeclared keys are dropped. An update body is read as plain
      path assignments; MongoDB update operators such as `$inc` or `$unset`
      in it are left out of the model. */
  datatype InterestBody = InterestBody(
    userId: Field<Id>,
    interestName: Field<string>,
    description: Field<string>,
    createdAt: Field<Time>,
    updatedAt: Field<Time>)

  const InterestKind := Crud.Kind(
    "Interest not found",
    "Access denied: Cannot view other users interests",
    "Access denied: Cannot update other users interests",
    "Access denied: Cannot delete other users interests",
    "No interests found for this user",
    "Interest deleted successfully")

  function Owner(i: Interest): Id { i.userId }

  function CreatedKey(i: Interest): SortKey { OptionalTimeKey(i.createdAt) }

  /** `new Interest({ ...req.body, userId: req.user._id })` then validation. */
  function Build(body: InterestBody, owner: Id, now: Time): (r: Result<Interest, Fault>)
    ensures r.Success? <==>
      && body.interestName.Given? && body.interestName.value != ""
      && !body.description.Uncastable? && !body.createdAt.Uncastable? && !body.updatedAt.Uncastable?
    ensures r.Success? ==>
      && r.value.userId == owner
      && r.value.interestName == body.interestName.value
      && StoredNew(body.description, r.value.description)
      && StoredDefaulted(body.createdAt, now, r.value.createdAt)
      && StoredDefaulted(body.updatedAt, now, r.value.updatedAt)
    ensures r.Failure? ==>
      && r.error.Invalid?
      && ("interestName" in r.error.paths <==> !(body.interestName.Given? && body.interestName.value != ""))
  {
    var name := RequiredText(body.interestName);
    var desc := OptionalValue(body.description);
    var created := DefaultedTime(body.createdAt, now);
    var updated := DefaultedTime(body.updatedAt, now);
    var bad := FailedPath(name, "interestName") + FailedPath(desc, "description")
             + FailedPath(created, "createdAt") + FailedPath(updated, "updatedAt");
    if bad != {} then Failure(Invalid(bad))
    else Success(Interest(owner, name.value, desc.value, created.value, updated.value))
  }

  /** `findByIdAndUpdate(id, req.body, { new: true, runValidators: true })`. */
  function Patch(i: Interest, body: InterestBody): (r: Result<Interest, Fault>)
    ensures r.Success? <==>
      && !body.userId.Null? && !body.userId.Uncastable?
      && !body.interestName.Null? && !body.interestName.Uncastable? && body.interestName != Given("")
      && !body.description.Uncastable? && !body.createdAt.Uncastable? && !body.updatedAt.Uncastable?
    ensures r.Success? ==>
      && (body.userId.Absent? ==> r.value.userId == i.userId)
      && (body.userId.Given? ==> r.value.userId == body.userId.value)
      && (body.interestName.Absent? ==> r.value.interestName == i.interestName)
      && (body.interestName.Given? ==> r.value.interestName == body.interestName.value)
      && StoredUpdate(body.description, i.description, r.value.description)
      && StoredUpdate(body.createdAt, i.createdAt, r.value.createdAt)
      && StoredUpdate(body.updatedAt, i.updatedAt, r.value.updatedAt)
  {
    var owner := PatchOwner(body.userId, i.userId);
    var name := PatchRequiredText(body.interestName, i.interestName);
    var desc := PatchOptional(body.description, i.description);
    var created := PatchOptional(body.createdAt, i.createdAt);
    var updated := PatchOptional(body.updatedAt, i.updatedAt);
    var bad := FailedPath(owner, "userId") + FailedPath(name, "interestName") + FailedPath(desc, "description")
             + FailedPath(created, "createdAt") + FailedPath(updated, "updatedAt");
    if bad != {} then Failure(Invalid(bad))
    else Success(Interest(owner.value, name.value, desc.value, created.value, updated.value))
  }

  // ---------------------------------------------------------------------
  // The controller

  /** `createInterest`. */
  function CreateInterest(store: map<Id, Interest>, requester: Id, body: InterestBody,
                          now: Time, newId: Id): (r: Crud.Reply<Interest>)
    ensures r.status == Created <==> Build(body, requester, now).Success? && newId !in store
    ensures r.status == Created ==>
      && newId in r.store
      && r.store == store[newId := r.store[newId]]
      && r.store[newId].userId == requester
      && r.store[newId].interestName == body.interestName.value
      && r.body == Crud.One(Entry(newId, r.store[newId]))
    ensures r.status != Created ==> r.status == BadRequest && r.store == store
  {
    Crud.Create(store, Build(body, requester, now), newId)
  }

  /** `getInterestById`. */
  function GetInterest(store: map<Id, Interest>, requester: Id, rawId: string) : (r: Crud.Reply<Interest>)
    ensures r.store == store
    ensures r.status in {Ok, NotFound, Forbidden, ServerError}
    ensures r.status == NotFound ==> r.body == Crud.Message(InterestKind.notFound)
    ensures r.status == Forbidden ==> r.body == Crud.Message(InterestKind.viewDenied)
    ensures r.status == Ok ==>
      && r.body.One? && r.body.entry.doc.userId == requester
      && r.body.entry.id in store && store[r.body.entry.id] == r.body.entry.doc
  {
    Crud.Get(store, Owner, InterestKind, requester, rawId)
  }

  /** `updateInterest`. */
  function UpdateInterest(store: map<Id, Interest>, requester: Id, rawId: string, body: InterestBody)
    : (r: Crud.Reply<Interest>)
    ensures r.status in {Ok, NotFound, Forbidden, BadRequest}
    ensures r.status != Ok ==> r.store == store
    ensures r.status == NotFound ==> r.body == Crud.Message(InterestKind.notFound)
    ensures r.status == Forbidden ==> r.body == Crud.Message(InterestKind.updateDenied)
    ensures r.status == Ok ==>
      && CastObjectId(rawId).Some?
      && var id := CastObjectId(rawId).value;
      && id in store && store[id].userId == requester && id in r.store
      && r.store == store[id := r.store[id]]
      && r.body == Crud.One(Entry(id, r.store[id]))
  {
    Crud.Update(store, Owner, InterestKind, requester, rawId, i => Patch(i, body))
  }

  /** `deleteInterest`. */
  function DeleteInterest(store: map<Id, Interest>, requester: Id, rawId: string) : (r: Crud.Reply<Interest>)
    ensures r.status in {Ok, NotFound, Forbidden, ServerError}
    ensures r.status != Ok ==> r.store == store
    ensures r.status == NotFound ==> r.body == Crud.Message(InterestKind.notFound)
    ensures r.status == Forbidden ==> r.body == Crud.Message(InterestKind.deleteDenied)
    ensures r.status == Ok ==>
      && CastObjectId(rawId).Some?
      && var id := CastObjectId(rawId).value;
      && id in store && store[id].userId == requester
      && r.store == store - {id}
      && r.body == Crud.Message(InterestKind.deleted)
  {
    Crud.Delete(store, Owner, InterestKind, requester, rawId)
  }

  /** `getAllInterests`: newest `createdAt` first. */
  method ListInterests(store: map<Id, Interest>, requester: Id) returns (r: Crud.Reply<Interest>)
    ensures r.status == Ok && r.store == store && r.body.Many?
    ensures Crud.ExactlyOwned(r.body.entries, store, Owner, requester)
    ensures forall i, j :: 0 <= i < j < |r.body.entries| ==>
      KeyLe(CreatedKey(r.body.entries[j].doc), CreatedKey(r.body.entries[i].doc))
  {
    r := Crud.ListOwn(store, Owner, CreatedKey, requester);
  }

  /** `getInterestsByUserId`: 403 for another user's id, 404 when there are
      none, otherwise newest `createdAt` first. */
  method ListInterestsByUser(store: map<Id, Interest>, requester: Id, userParam: string)
    returns (r: Crud.Reply<Interest>)
    ensures r.store == store
    ensures userParam != requester ==>
      r.status == Forbidden && r.body == Crud.Message(InterestKind.viewDenied)
    ensures userParam == requester && r.status == NotFound ==>
      r.body == Crud.Message(InterestKind.noneForUser) && Crud.OwnsNothing(store, Owner, requester)
    ensures r.status == Ok ==>
      && userParam == requester && r.body.Many? && |r.body.entries| > 0
      && Crud.ExactlyOwned(r.body.entries, store, Owner, requester)
      && forall i, j :: 0 <= i < j < |r.body.entries| ==>
           KeyLe(CreatedKey(r.body.entries[j].doc), CreatedKey(r.body.entries[i].doc))
    ensures userParam == requester && !Crud.OwnsNothing(store, Owner, requester) ==> r.status == Ok
    ensures userParam == requester && Crud.OwnsNothing(store, Owner, requester) ==> r.status == NotFound
  {
    r := Crud.ListByUser(store, Owner, CreatedKey, InterestKind, requester, userParam);
  }

  /** The `userId` a client puts in a create body has no effect. */
  lemma CreateIgnoresBodyOwner(store: map<Id, Interest>, requester: Id, body: InterestBody,
                               forged: Field<Id>, now: Time, newId: Id)
    ensures CreateInterest(store, requester, body.(userId := forged), now, newId)
         == CreateInterest(store, requester, body, now, newId)
  {
  }

  /** An empty `interestName` is rejected on create and on update alike, and
      the rejected update leaves the store as it was. */
  lemma EmptyNameRejected(store: map<Id, Interest>, requester: Id, id: Id, body: InterestBody, now: Time)
    requires IsCanonicalId(id) && id in store && store[id].userId == requester
    requires body.interestName == Given("")
    ensures CreateInterest(store, requester, body, now, id).status == BadRequest
    ensures var u := UpdateInterest(store, requester, id, body);
      u.status == BadRequest && u.store == store
  {
    CanonicalIdCastsToItself(id);
  }
}

=== FILE: json.dfy ===
/** The parsed AI response as a JSON value, and the few JavaScript
    operations the generator applies to it: property reads, truthiness, and
    the cast Mongoose applies when such a value is assigned to a `String`
    path. `JSON.stringify` and number-to-string conversion are oracles. */
module Json {
  import opened Common

  datatype Json =
    | JNull
    | JBool(b: bool)
    | JNum(n: real)
    | JStr(s: string)
    | JArr(items: seq<Json>)
    | JObj(fields: map<string, Json>)

  /** `JSON.stringify` and `Number.prototype.toString`, left abstract. */
  datatype Codec = Codec(stringify: Json -> string, numberText: real -> string)

  /** JavaScript truthiness of a property read, `None` being `undefined`:
      `undefined`, `null`, `false`, `0` and `""` are falsy; arrays and
      objects, even empty ones, are truthy. */
  predicate Truthy(v: Option<Json>)
  {
    match v
    case None => false
    case Some(JNull) => false
    case Some(JBool(b)) => b
    case Some(JNum(n)) => n != 0.0
    case Some(JStr(s)) => s != ""
    case Some(_) => true
  }

  /** `v.key` for a key that is not a built-in property of strings, numbers,
      booleans or arrays: a TypeError on `null`, `undefined` when `v` is not
      an object or lacks the key. */
  function Get(v: Json, key: string): (r: Result<Option<Json>, Fault>)
    ensures r.Failure? <==> v.JNull?
    ensures r.Failure? ==> r.error == TypeError
    ensures r.Success? ==> (r.value.Some? <==> v.JObj? && key in v.fields)
    ensures r.Success? && r.value.Some? ==> r.value.value == v.fields[key]
  {
    match v
    case JNull => Failure(TypeError)
    case JObj(fs) => if key in fs then Success(Some(fs[key])) else Success(None)
    case _ => Success(None)
  }

  /** Assigning a property read to a `String` schema path: `undefined` leaves
      the path unset, `null` stores null, strings are kept, numbers and
      booleans become their text, an object with a non-empty string `_id`
      becomes that id, and any other array or object fails the cast. */
  function StringField(v: Option<Json>, codec: Codec): (r: Field<string>)
    ensures r.Absent? <==> v.None?
    ensures r.Null? <==> v == Some(JNull)
    ensures v.Some? && v.value.JStr? ==> r == Given(v.value.s)
    ensures v.Some? && v.value.JArr? ==> r.Uncastable?
    ensures r.Given? ==> v.Some? && (v.value.JStr? || v.value.JNum? || v.value.JBool? || v.value.JObj?)
  {
    match v
    case None => Absent
    case Some(JNull) => Null
    case Some(JStr(s)) => Given(s)
    case Some(JNum(n)) => Given(codec.numberText(n))
    case Some(JBool(b)) => Given(if b then "true" else "false")
    case Some(JArr(_)) => Uncastable
    case Some(JObj(fs)) =>
      if "_id" in fs && fs["_id"].JStr? && fs["_id"].s != "" then Given(fs["_id"].s) else Uncastable
  }
}

=== FILE: prompt.dfy ===
/** The prompt of the Gemini service as a template with three
    interpolated lines (skill names, qualification titles, interest names,
    each joined by ", "), and what can be read back out of a filled one. */
module Prompt {
  import opened Common
  import opened Text
  import Skills
  import Qualifications
  import Interests

  /** The identity fields the controller adds to the service's input. */
  datatype Profile = Profile(username: string, email: string, firstName: Option<string>, lastName: Option<string>)

  datatype UserData = UserData(
    skills: seq<Skills.Skill>,
    qualifications: seq<Qualifications.Qualification>,
    interests: seq<Interests.Interest>,
    user: Profile)

  function SkillNames(ss: seq<Skills.Skill>): (r: seq<string>)
    ensures |r| == |ss| && forall i :: 0 <= i < |ss| ==> r[i] == ss[i].skillName
  {
    seq(|ss|, i requires 0 <= i < |ss| => ss[i].skillName)
  }

  function QualificationTitles(qs: seq<Qualifications.Qualification>): (r: seq<string>)
    ensures |r| == |qs| && forall i :: 0 <= i < |qs| ==> r[i] == qs[i].title
  {
    seq(|qs|, i requires 0 <= i < |qs| => qs[i].title)
  }

  function InterestNames(ins: seq<Interests.Interest>): (r: seq<string>)
    ensures |r| == |ins| && forall i :: 0 <= i < |ins| ==> r[i] == ins[i].interestName
  {
    seq(|ins|, i requires 0 <= i < |ins| => ins[i].interestName)
  }

  /** The three interpolated lines: the names in input order joined by ", ". */
  function SkillsLine(d: UserData): string { Join(SkillNames(d.skills), ", ") }
  function QualificationsLine(d: UserData): string { Join(QualificationTitles(d.qualifications), ", ") }
  function InterestsLine(d: UserData): string { Join(InterestNames(d.interests), ", ") }

  /** An empty collection leaves its line empty, and a single document puts
      just its name on the line, with no separator. */
  lemma LinesOfFewNames(d: UserData)
    ensures d.skills == [] ==> SkillsLine(d) == ""
    ensures d.qualifications == [] ==> QualificationsLine(d) == ""
    ensures d.interests == [] ==> InterestsLine(d) == ""
    ensures |d.skills| == 1 ==> SkillsLine(d) == d.skills[0].skillName
    ensures |d.qualifications| == 1 ==> QualificationsLine(d) == d.qualifications[0].title
    ensures |d.interests| == 1 ==> InterestsLine(d) == d.interests[0].interestName
  {
  }

  /** A prompt template: the text before each of the three interpolated
      lines and the text after the last one. */
  datatype Template = Template(head: string, qualificationsLabel: string, interestsLabel: string, instructions: string)

  /** A template filled in with the three lines. */
  function Fill(t: Template, d: UserData): (p: string)
  {
    Layout(t.head, SkillsLine(d), t.qualificationsLabel, QualificationsLine(d), t.interestsLabel, InterestsLine(d),
           t.instructions)
  }

  /** No name in the data contains a line break. */
  predicate SingleLineNames(d: UserData)
  {
    && (forall i :: 0 <= i < |d.skills| ==> !Contains(d.skills[i].skillName, '\n'))
    && (forall i :: 0 <= i < |d.qualifications| ==> !Contains(d.qualifications[i].title, '\n'))
    && (forall i :: 0 <= i < |d.interests| ==> !Contains(d.interests[i].interestName, '\n'))
  }

  /** Names without line breaks make lines without line breaks. */
  lemma LinesAvoidBreaks(d: UserData)
    requires SingleLineNames(d)
    ensures !Contains(SkillsLine(d), '\n')
    ensures !Contains(QualificationsLine(d), '\n')
    ensures !Contains(InterestsLine(d), '\n')
  {
    JoinAvoids(SkillNames(d.skills), ", ", '\n');
    JoinAvoids(QualificationTitles(d.qualifications), ", ", '\n');
    JoinAvoids(InterestNames(d.interests), ", ", '\n');
  }

  /** Equal lines give equal prompts, whatever the names contain. */
  lemma SameLinesSamePrompt(t: Template, d1: UserData, d2: UserData)
    requires SkillsLine(d1) == SkillsLine(d2)
    requires QualificationsLine(d1) == QualificationsLine(d2)
    requires InterestsLine(d1) == InterestsLine(d2)
    ensures Fill(t, d1) == Fill(t, d2)
  {
  }

  /** Two inputs fill a template identically exactly when their three lines
      agree: the prompt carries the names and nothing else, in particular
      nothing of the user's identity. */
  lemma FillDependsOnlyOnNames(t: Template, d1: UserData, d2: UserData)
    requires SingleLineNames(d1) && SingleLineNames(d2)
    ensures Fill(t, d1) == Fill(t, d2) <==>
      && SkillsLine(d1) == SkillsLine(d2)
      && QualificationsLine(d1) == QualificationsLine(d2)
      && InterestsLine(d1) == InterestsLine(d2)
  {
    LinesAvoidBreaks(d1);
    LinesAvoidBreaks(d2);
    LayoutInjective(t.head, t.qualificationsLabel, t.interestsLabel, t.instructions,
                    SkillsLine(d1), QualificationsLine(d1), InterestsLine(d1),
                    SkillsLine(d2), QualificationsLine(d2), InterestsLine(d2));
  }
}

=== FILE: qualifications.dfy ===
/** The Qualification schema and the qualification controller. The schema
    has no `timestamps` option: `createdAt` and `updatedAt` are ordinary
    `Date` paths with `default: Date.now`, so they are set only when a new
    document leaves them out, a body may set them, and nothing advances
    `updatedAt` on an update. */
module Qualifications {
  import opened Common
  import opened Sorting
  import Crud

  datatype Qualification = Qualification(
    userId: Id,
    title: string,
    institution: Option<string>,
    dateObtained: Option<Time>,
    description: Option<string>,
    createdAt: Option<Time>,
    updatedAt: Option<Time>)

  /** The schema paths of a request body. On create, undeclared keys are dropped. An update body is read as plain
      path assignments; MongoDB update operators such as `$inc` or `$unset`
      in it are left out of the model. */
  datatype QualificationBody = QualificationBody(
    userId: Field<Id>,
    title: Field<string>,
    institution: Field<string>,
    dateObtained: Field<Time>,
    description: Field<string>,
    createdAt: Field<Time>,
    updatedAt: Field<Time>)

  const QualificationKind := Crud.Kind(
    "Qualification not found",
    "Access denied: Cannot view other users qualifications",
    "Access denied: Cannot update other users qualifications",
    "Access denied: Cannot delete other users qualifications",
    "No qualifications found for this user",
    "Qualification deleted successfully")

  function Owner(q: Qualification): Id { q.userId }

  function CreatedKey(q: Qualification): SortKey { OptionalTimeKey(q.createdAt) }

  function DateObtainedKey(q: Qualification): SortKey { OptionalTimeKey(q.dateObtained) }

  /** `new Qualification({ ...req.body, userId: req.user._id })` then
      validation: the owner is always `owner`; `title` is required; the
      timestamps default to `now` only when the body leaves them out. */
  function Build(body: QualificationBody, owner: Id, now: Time): (r: Result<Qualification, Fault>)
    ensures r.Success? <==>
      && body.title.Given? && body.title.value != ""
      && !body.institution.Uncastable? && !body.dateObtained.Uncastable? && !body.description.Uncastable?
      && !body.createdAt.Uncastable? && !body.updatedAt.Uncastable?
    ensures r.Success? ==>
      && r.value.userId == owner
      && r.value.title == body.title.value
      && StoredNew(body.institution, r.value.institution)
      && StoredNew(body.dateObtained, r.value.dateObtained)
      && StoredNew(body.description, r.value.description)
      && StoredDefaulted(body.createdAt, now, r.value.createdAt)
      && StoredDefaulted(body.updatedAt, now, r.value.updatedAt)
    ensures r.Failure? ==>
      && r.error.Invalid?
      && ("title" in r.error.paths <==> !(body.title.Given? && body.title.value != ""))
  {
    var title := RequiredText(body.title);
    var inst := OptionalValue(body.institution);
    var date := OptionalValue(body.dateObtained);
    var desc := OptionalValue(body.description);
    var created := DefaultedTime(body.createdAt, now);
    var updated := DefaultedTime(body.updatedAt, now);
    var bad := FailedPath(title, "title") + FailedPath(inst, "institution") + FailedPath(date, "dateObtained")
             + FailedPath(desc, "description") + FailedPath(created, "createdAt") + FailedPath(updated, "updatedAt");
    if bad != {} then Failure(Invalid(bad))
    else Success(Qualification(owner, title.value, inst.value, date.value, desc.value, created.value, updated.value))
  }

  /** `findByIdAndUpdate(id, req.body, { new: true, runValidators: true })`:
      given paths are set (`userId` included), omitted ones kept; there is
      no clock in it, so `updatedAt` changes only if the body sets it. */
  function Patch(q: Qualification, body: QualificationBody): (r: Result<Qualification, Fault>)
    ensures r.Success? <==>
      && !body.userId.Null? && !body.userId.Uncastable?
      && !body.title.Null? && !body.title.Uncastable? && body.title != Given("")
      && !body.institution.Uncastable? && !body.dateObtained.Uncastable? && !body.description.Uncastable?
      && !body.createdAt.Uncastable? && !body.updatedAt.Uncastable?
    ensures r.Success? ==>
      && (body.userId.Absent? ==> r.value.userId == q.userId)
      && (body.userId.Given? ==> r.value.userId == body.userId.value)
      && (body.title.Absent? ==> r.value.title == q.title)
      && (body.title.Given? ==> r.value.title == body.title.value)
      && StoredUpdate(body.institution, q.institution, r.value.institution)
      && StoredUpdate(body.dateObtained, q.dateObtained, r.value.dateObtained)
      && StoredUpdate(body.description, q.description, r.value.description)
      && StoredUpdate(body.createdAt, q.createdAt, r.value.createdAt)
      && StoredUpdate(body.updatedAt, q.updatedAt, r.value.updatedAt)
  {
    var owner := PatchOwner(body.userId, q.userId);
    var title := PatchRequiredText(body.title, q.title);
    var inst := PatchOptional(body.institution, q.institution);
    var date := PatchOptional(body.dateObtained, q.dateObtained);
    var desc := PatchOptional(body.description, q.description);
    var created := PatchOptional(body.createdAt, q.createdAt);
    var updated := PatchOptional(body.updatedAt, q.updatedAt);
    var bad := FailedPath(owner, "userId") + FailedPath(title, "title") + FailedPath(inst, "institution")
             + FailedPath(date, "dateObtained") + FailedPath(desc, "description")
             + FailedPath(created, "createdAt") + FailedPath(updated, "updatedAt");
    if bad != {} then Failure(Invalid(bad))
    else Success(Qualification(owner.value, title.value, inst.value, date.value, desc.value, created.value, updated.value))
  }

  // ---------------------------------------------------------------------
  // The controller

  /** `createQualification`: 201 with a document owned by the requester, or
      400 with nothing stored. */
  function CreateQualification(store: map<Id, Qualification>, requester: Id, body: QualificationBody,
                               now: Time, newId: Id): (r: Crud.Reply<Qualification>)
    ensures r.status == Created <==> Build(body, requester, now).Success? && newId !in store
    ensures r.status == Created ==>
      && newId in r.store
      && r.store == store[newId := r.store[newId]]
      && r.store[newId].userId == requester
      && r.store[newId].title == body.title.value
      && r.body == Crud.One(Entry(newId, r.store[newId]))
    ensures r.status != Created ==> r.status == BadRequest && r.store == store
  {
    Crud.Create(store, Build(body, requester, now), newId)
  }

  /** `getQualificationById`. */
  function GetQualification(store: map<Id, Qualification>, requester: Id, rawId: string)
    : (r: Crud.Reply<Qualification>)
    ensures r.store == store
    ensures r.status in {Ok, NotFound, Forbidden, ServerError}
    ensures r.status == NotFound ==> r.body == Crud.Message(QualificationKind.notFound)
    ensures r.status == Forbidden ==> r.body == Crud.Message(QualificationKind.viewDenied)
    ensures r.status == Ok ==>
      && r.body.One? && r.body.entry.doc.userId == requester
      && r.body.entry.id in store && store[r.body.entry.id] == r.body.entry.doc
  {
    Crud.Get(store, Owner, QualificationKind, requester, rawId)
  }

  /** `updateQualification`: on success only the target changes; on any
      error nothing changes. */
  function UpdateQualification(store: map<Id, Qualification>, requester: Id, rawId: string,
                               body: QualificationBody): (r: Crud.Reply<Qualification>)
    ensures r.status in {Ok, NotFound, Forbidden, BadRequest}
    ensures r.status != Ok ==> r.store == store
    ensures r.status == NotFound ==> r.body == Crud.Message(QualificationKind.notFound)
    ensures r.status == Forbidden ==> r.body == Crud.Message(QualificationKind.updateDenied)
    ensures r.status == Ok ==>
      && CastObjectId(rawId).Some?
      && var id := CastObjectId(rawId).value;
      && id in store && store[id].userId == requester && id in r.store
      && r.store == store[id := r.store[id]]
      && (body.updatedAt.Absent? ==> r.store[id].updatedAt == store[id].updatedAt)
      && r.body == Crud.One(Entry(id, r.store[id]))
  {
    Crud.Update(store, Owner, QualificationKind, requester, rawId, q => Patch(q, body))
  }

  /** `deleteQualification`. */
  function DeleteQualification(store: map<Id, Qualification>, requester: Id, rawId: string)
    : (r: Crud.Reply<Qualification>)
    ensures r.status in {Ok, NotFound, Forbidden, ServerError}
    ensures r.status != Ok ==> r.store == store
    ensures r.status == NotFound ==> r.body == Crud.Message(QualificationKind.notFound)
    ensures r.status == Forbidden ==> r.body == Crud.Message(QualificationKind.deleteDenied)
    ensures r.status == Ok ==>
      && CastObjectId(rawId).Some?
      && var id := CastObjectId(rawId).value;
      && id in store && store[id].userId == requester
      && r.store == store - {id}
      && r.body == Crud.Message(QualificationKind.deleted)
  {
    Crud.Delete(store, Owner, QualificationKind, requester, rawId)
  }

  /** `getAllQualifications`: the requester's qualifications, newest
      `createdAt` first. */
  method ListQualifications(store: map<Id, Qualification>, requester: Id) returns (r: Crud.Reply<Qualification>)
    ensures r.status == Ok && r.store == store && r.body.Many?
    ensures Crud.ExactlyOwned(r.body.entries, store, Owner, requester)
    ensures forall i, j :: 0 <= i < j < |r.body.entries| ==>
      KeyLe(CreatedKey(r.body.entries[j].doc), CreatedKey(r.body.entries[i].doc))
  {
    r := Crud.ListOwn(store, Owner, CreatedKey, requester);
  }

  /** `getQualificationsByUserId`: 403 for another user's id, 404 when there
      are none, otherwise by `dateObtained`, latest first, undated last. */
  method ListQualificationsByUser(store: map<Id, Qualification>, requester: Id, userParam: string)
    returns (r: Crud.Reply<Qualification>)
    ensures r.store == store
    ensures userParam != requester ==>
      r.status == Forbidden && r.body == Crud.Message(QualificationKind.viewDenied)
    ensures userParam == requester && r.status == NotFound ==>
      r.body == Crud.Message(QualificationKind.noneForUser) && Crud.OwnsNothing(store, Owner, requester)
    ensures r.status == Ok ==>
      && userParam == requester && r.body.Many? && |r.body.entries| > 0
      && Crud.ExactlyOwned(r.body.entries, store, Owner, requester)
      && forall i, j :: 0 <= i < j < |r.body.entries| ==>
           KeyLe(DateObtainedKey(r.body.entries[j].doc), DateObtainedKey(r.body.entries[i].doc))
    ensures userParam == requester && !Crud.OwnsNothing(store, Owner, requester) ==> r.status == Ok
    ensures userParam == requester && Crud.OwnsNothing(store, Owner, requester) ==> r.status == NotFound
  {
    r := Crud.ListByUser(store, Owner, DateObtainedKey, QualificationKind, requester, userParam);
  }

  /** The `userId` a client puts in a create body has no effect. */
  lemma CreateIgnoresBodyOwner(store: map<Id, Qualification>, requester: Id, body: QualificationBody,
                               forged: Field<Id>, now: Time, newId: Id)
    ensures CreateQualification(store, requester, body.(userId := forged), now, newId)
         == CreateQualification(store, requester, body, now, newId)
  {
  }

  /** Updating only the description keeps title and institution, changes the
      description, and leaves `updatedAt` where it was. */
  lemma DescriptionOnlyUpdate(store: map<Id, Qualification>, requester: Id, id: Id, text: string)
    requires IsCanonicalId(id) && id in store && store[id].userId == requester
    ensures var body := QualificationBody(Absent, Absent, Absent, Absent, Given(text), Absent, Absent);
      var u := UpdateQualification(store, requester, id, body);
      && u.status == Ok
      && u.store[id] == store[id].(description := Some(text))
  {
    CanonicalIdCastsToItself(id);
  }
}

=== FILE: recommendations.dfy ===
/** The Recommendation schema and its CRUD handlers (the AI-driven
    generation lives in `Generate`). The schema has five content paths and
    the two `Date.now`-defaulted timestamps; it has no path for a confidence
    score or for skill gaps, so those keys never reach the database. */
module Recommendations {
  import opened Common
  import opened Sorting
  import Crud

  datatype Recommendation = Recommendation(
    userId: Id,
    careerSuggestion: string,
    courseLink: Option<string>,
    justification: Option<string>,
    aiModelUsed: Option<string>,
    createdAt: Option<Time>,
    updatedAt: Option<Time>)

  /** The schema paths of the object handed to `new Recommendation(...)`
      or of an update body. On create any other key (such as
      `confidenceScore` or `skillGaps`) is dropped. An update body is read
      as plain path assignments; MongoDB update operators such as `$inc` or
      `$unset` in it are left out of the model. */
  datatype RecommendationBody = RecommendationBody(
    userId: Field<Id>,
    careerSuggestion: Field<string>,
    courseLink: Field<string>,
    justification: Field<string>,
    aiModelUsed: Field<string>,
    createdAt: Field<Time>,
    updatedAt: Field<Time>)

  const RecommendationKind := Crud.Kind(
    "Recommendation not found",
    "Access denied: Cannot view other users recommendations",
    "Access denied: Cannot update other users recommendations",
    "Access denied: Cannot delete other users recommendations",
    "No recommendations found for this user",
    "Recommendation deleted successfully")

  function Owner(r: Recommendation): Id { r.userId }

  function CreatedKey(r: Recommendation): SortKey { OptionalTimeKey(r.createdAt) }

  /** `new Recommendation({ ...data, userId })` then validation:
      `careerSuggestion` is required, the others optional. */
  function Build(body: RecommendationBody, owner: Id, now: Time): (r: Result<Recommendation, Fault>)
    ensures r.Success? <==>
      && body.careerSuggestion.Given? && body.careerSuggestion.value != ""
      && !body.courseLink.Uncastable? && !body.justification.Uncastable? && !body.aiModelUsed.Uncastable?
      && !body.createdAt.Uncastable? && !body.updatedAt.Uncastable?
    ensures r.Success? ==>
      && r.value.userId == owner
      && r.value.careerSuggestion == body.careerSuggestion.value
      && StoredNew(body.courseLink, r.value.courseLink)
      && StoredNew(body.justification, r.value.justification)
      && StoredNew(body.aiModelUsed, r.value.aiModelUsed)
      && StoredDefaulted(body.createdAt, now, r.value.createdAt)
      && StoredDefaulted(body.updatedAt, now, r.value.updatedAt)
    ensures r.Failure? ==>
      && r.error.Invalid?
      && ("careerSuggestion" in r.error.paths <==> !(body.careerSuggestion.Given? && body.careerSuggestion.value != ""))
  {
    var career := RequiredText(body.careerSuggestion);
    var link := OptionalValue(body.courseLink);
    var why := OptionalValue(body.justification);
    var model := OptionalValue(body.aiModelUsed);
    var created := DefaultedTime(body.createdAt, now);
    var updated := DefaultedTime(body.updatedAt, now);
    var bad := FailedPath(career, "careerSuggestion") + FailedPath(link, "courseLink")
             + FailedPath(why, "justification") + FailedPath(model, "aiModelUsed")
             + FailedPath(created, "createdAt") + FailedPath(updated, "updatedAt");
    if bad != {} then Failure(Invalid(bad))
    else Success(Recommendation(owner, career.value, link.value, why.value, model.value, created.value, updated.value))
  }

  /** `findByIdAndUpdate(id, req.body, { new: true, runValidators: true })`. */
  function Patch(rec: Recommendation, body: RecommendationBody): (r: Result<Recommendation, Fault>)
    ensures r.Success? <==>
      && !body.userId.Null? && !body.userId.Uncastable?
      && !body.careerSuggestion.Null? && !body.careerSuggestion.Uncastable? && body.careerSuggestion != Given("")
      && !body.courseLink.Uncastable? && !body.justification.Uncastable? && !body.aiModelUsed.Uncastable?
      && !body.createdAt.Uncastable? && !body.updatedAt.Uncastable?
    ensures r.Success? ==>
      && (body.userId.Absent? ==> r.value.userId == rec.userId)
      && (body.userId.Given? ==> r.value.userId == body.userId.value)
      && (body.careerSuggestion.Absent? ==> r.value.careerSuggestion == rec.careerSuggestion)
      && (body.careerSuggestion.Given? ==> r.value.careerSuggestion == body.careerSuggestion.value)
      && StoredUpdate(body.courseLink, rec.courseLink, r.value.courseLink)
      && StoredUpdate(body.justification, rec.justification, r.value.justification)
      && StoredUpdate(body.aiModelUsed, rec.aiModelUsed, r.value.aiModelUsed)
      && StoredUpdate(body.createdAt, rec.createdAt, r.value.createdAt)
      && StoredUpdate(body.updatedAt, rec.updatedAt, r.value.updatedAt)
  {
    var owner := PatchOwner(body.userId, rec.userId);
    var career := PatchRequiredText(body.careerSuggestion, rec.careerSuggestion);
    var link := PatchOptional(body.courseLink, rec.courseLink);
    var why := PatchOptional(body.justification, rec.justification);
    var model := PatchOptional(body.aiModelUsed, rec.aiModelUsed);
    var created := PatchOptional(body.createdAt, rec.createdAt);
    var updated := PatchOptional(body.updatedAt, rec.updatedAt);
    var bad := FailedPath(owner, "userId") + FailedPath(career, "careerSuggestion")
             + FailedPath(link, "courseLink") + FailedPath(why, "justification")
             + FailedPath(model, "aiModelUsed") + FailedPath(created, "createdAt")
             + FailedPath(updated, "updatedAt");
    if bad != {} then Failure(Invalid(bad))
    else Success(Recommendation(owner.value, career.value, link.value, why.value, model.value, created.value, updated.value))
  }

  // ---------------------------------------------------------------------
  // The controller's CRUD handlers

  /** `createRecommendation`: a manually entered recommendation. */
  function CreateRecommendation(store: map<Id, Recommendation>, requester: Id, body: RecommendationBody,
                                now: Time, newId: Id): (r: Crud.Reply<Recommendation>)
    ensures r.status == Created <==> Build(body, requester, now).Success? && newId !in store
    ensures r.status == Created ==>
      && newId in r.store
      && r.store == store[newId := r.store[newId]]
      && r.store[newId].userId == requester
      && r.store[newId].careerSuggestion == body.careerSuggestion.value
      && r.body == Crud.One(Entry(newId, r.store[newId]))
    ensures r.status != Created ==> r.status == BadRequest && r.store == store
  {
    Crud.Create(store, Build(body, requester, now), newId)
  }

  /** `getRecommendationById`. */
  function GetRecommendation(store: map<Id, Recommendation>, requester: Id, rawId: string)
    : (r: Crud.Reply<Recommendation>)
    ensures r.store == store
    ensures r.status in {Ok, NotFound, Forbidden, ServerError}
    ensures r.status == NotFound ==> r.body == Crud.Message(RecommendationKind.notFound)
    ensures r.status == Forbidden ==> r.body == Crud.Message(RecommendationKind.viewDenied)
    ensures r.status == Ok ==>
      && r.body.One? && r.body.entry.doc.userId == requester
      && r.body.entry.id in store && store[r.body.entry.id] == r.body.entry.doc
  {
    Crud.Get(store, Owner, RecommendationKind, requester, rawId)
  }

  /** `updateRecommendation`. */
  function UpdateRecommendation(store: map<Id, Recommendation>, requester: Id, rawId: string,
                                body: RecommendationBody): (r: Crud.Reply<Recommendation>)
    ensures r.status in {Ok, NotFound, Forbidden, BadRequest}
    ensures r.status != Ok ==> r.store == store
    ensures r.status == NotFound ==> r.body == Crud.Message(RecommendationKind.notFound)
    ensures r.status == Forbidden ==> r.body == Crud.Message(RecommendationKind.updateDenied)
    ensures r.status == Ok ==>
      && CastObjectId(rawId).Some?
      && var id := CastObjectId(rawId).value;
      && id in store && store[id].userId == requester && id in r.store
      && r.store == store[id := r.store[id]]
      && r.body == Crud.One(Entry(id, r.store[id]))
  {
    Crud.Update(store, Owner, RecommendationKind, requester, rawId, rec => Patch(rec, body))
  }

  /** `deleteRecommendation`. */
  function DeleteRecommendation(store: map<Id, Recommendation>, requester: Id, rawId: string)
    : (r: Crud.Reply<Recommendation>)
    ensures r.status in {Ok, NotFound, Forbidden, ServerError}
    ensures r.status != Ok ==> r.store == store
    ensures r.status == NotFound ==> r.body == Crud.Message(RecommendationKind.notFound)
    ensures r.status == Forbidden ==> r.body == Crud.Message(RecommendationKind.deleteDenied)
    ensures r.status == Ok ==>
      && CastObjectId(rawId).Some?
      && var id := CastObjectId(rawId).value;
      && id in store && store[id].userId == requester
      && r.store == store - {id}
      && r.body == Crud.Message(RecommendationKind.deleted)
  {
    Crud.Delete(store, Owner, RecommendationKind, requester, rawId)
  }

  /** `getAllRecommendations`: newest `createdAt` first. */
  method ListRecommendations(store: map<Id, Recommendation>, requester: Id) returns (r: Crud.Reply<Recommendation>)
    ensures r.status == Ok && r.store == store && r.body.Many?
    ensures Crud.ExactlyOwned(r.body.entries, store, Owner, requester)
    ensures forall i, j :: 0 <= i < j < |r.body.entries| ==>
      KeyLe(CreatedKey(r.body.entries[j].doc), CreatedKey(r.body.entries[i].doc))
  {
    r := Crud.ListOwn(store, Owner, CreatedKey, requester);
  }

  /** `getRecommendationsByUserId`: 403 for another user's id, 404 when
      there are none, otherwise newest `createdAt` first. */
  method ListRecommendationsByUser(store: map<Id, Recommendation>, requester: Id, userParam: string)
    returns (r: Crud.Reply<Recommendation>)
    ensures r.store == store
    ensures userParam != requester ==>
      r.status == Forbidden && r.body == Crud.Message(RecommendationKind.viewDenied)
    ensures userParam == requester && r.status == NotFound ==>
      r.body == Crud.Message(RecommendationKind.noneForUser) && Crud.OwnsNothing(store, Owner, requester)
    ensures r.status == Ok ==>
      && userParam == requester && r.body.Many? && |r.body.entries| > 0
      && Crud.ExactlyOwned(r.body.entries, store, Owner, requester)
      && forall i, j :: 0 <= i < j < |r.body.entries| ==>
           KeyLe(CreatedKey(r.body.entries[j].doc), CreatedKey(r.body.entries[i].doc))
    ensures userParam == requester && !Crud.OwnsNothing(store, Owner, requester) ==> r.status == Ok
    ensures userParam == requester && Crud.OwnsNothing(store, Owner, requester) ==> r.status == NotFound
  {
    r := Crud.ListByUser(store, Owner, CreatedKey, RecommendationKind, requester, userParam);
  }

  /** The `userId` a client puts in a create body has no effect. */
  lemma CreateIgnoresBodyOwner(store: map<Id, Recommendation>, requester: Id, body: RecommendationBody,
                               forged: Field<Id>, now: Time, newId: Id)
    ensures CreateRecommendation(store, requester, body.(userId := forged), now, newId)
         == CreateRecommendation(store, requester, body, now, newId)
  {
  }
}

=== FILE: skills.dfy ===
/** The Skill schema and the skill controller. The schema has
    `timestamps: true`, so Mongoose itself stamps `createdAt` on insert and
    `updatedAt` on insert and on every `findByIdAndUpdate`. */
module Skills {
  import opened Common
  import opened Sorting
  import Crud

  datatype Proficiency = Beginner | Intermediate | Advanced

  function ProficiencyLabel(p: Proficiency): string
  {
    match p
    case Beginner => "Beginner"
    case Intermediate => "Intermediate"
    case Advanced => "Advanced"
  }

  /** The `enum` validator: exactly the three labels, case-sensitive. */
  function ParseProficiency(s: string): (r: Option<Proficiency>)
    ensures r.Some? <==> s in {"Beginner", "Intermediate", "Advanced"}
  {
    if s == "Beginner" then Some(Beginner)
    else if s == "Intermediate" then Some(Intermediate)
    else if s == "Advanced" then Some(Advanced)
    else None
  }

  /** The enum labels and the parsed levels correspond one to one. */
  lemma ProficiencyRoundTrip(p: Proficiency, s: string)
    ensures ParseProficiency(ProficiencyLabel(p)) == Some(p)
    ensures ParseProficiency(s) == Some(p) ==> ProficiencyLabel(p) == s
  {
  }

  datatype Skill = Skill(
    userId: Id,
    skillName: string,
    proficiencyLevel: Option<Proficiency>,
    yearsExperience: Option<real>,
    createdAt: Time,
    updatedAt: Time)

  /** The declared schema paths of a request body. On create, undeclared keys are dropped. An update body is read as plain
      path assignments; MongoDB update operators such as `$inc` or `$unset`
      in it are left out of the model. The `createdAt` and `updatedAt` paths that `timestamps` adds
      are left out of the model. */
  datatype SkillBody = SkillBody(
    userId: Field<Id>,
    skillName: Field<string>,
    proficiencyLevel: Field<string>,
    yearsExperience: Field<real>)

  const SkillKind := Crud.Kind(
    "Skill not found",
    "Access denied: Cannot view other users skills",
    "Access denied: Cannot update other users skills",
    "Access denied: Cannot delete other users skills",
    "No skills found for this user",
    "Skill deleted successfully")

  function Owner(s: Skill): Id { s.userId }

  function CreatedKey(s: Skill): SortKey { TimeKey(s.createdAt) }

  function YearsKey(s: Skill): SortKey
  {
    if s.yearsExperience.Some? then Num(s.yearsExperience.value) else Missing
  }

  /** `proficiencyLevel` on a new document: optional, but a given value must
      be one of the enum labels. */
  function LevelCheck(f: Field<string>): (r: Check<Option<Proficiency>>)
    ensures r.Reject? <==> f.Uncastable? || (f.Given? && ParseProficiency(f.value).None?)
    ensures f.Given? && r.Pass? ==> r.value.Some? && ProficiencyLabel(r.value.value) == f.value
    ensures f.Absent? || f.Null? ==> r == Pass(None)
  {
    match f
    case Absent => Pass(None)
    case Null => Pass(None)
    case Given(s) =>
      var p := ParseProficiency(s);
      if p.Some? then (ProficiencyRoundTrip(p.value, s); Pass(p)) else Reject
    case Uncastable => Reject
  }

  /** `proficiencyLevel` under an update with validators. */
  function LevelPatch(f: Field<string>, current: Option<Proficiency>): (r: Check<Option<Proficiency>>)
    ensures f.Absent? ==> r == Pass(current)
    ensures f.Null? ==> r == Pass(None)
    ensures f.Given? && r.Pass? ==> r.value.Some? && ProficiencyLabel(r.value.value) == f.value
    ensures r.Reject? <==> f.Uncastable? || (f.Given? && ParseProficiency(f.value).None?)
  {
    if f.Absent? then Pass(current) else LevelCheck(f)
  }

  /** `new Skill({ ...req.body, userId: req.user._id })` then validation:
      the owner is always `owner`, whatever the body says; `skillName` is
      required; a level outside the enum or an uncastable value fails and
      every failing path is reported. */
  function Build(body: SkillBody, owner: Id, now: Time): (r: Result<Skill, Fault>)
    ensures r.Success? <==>
      && body.skillName.Given? && body.skillName.value != ""
      && !body.proficiencyLevel.Uncastable?
      && (body.proficiencyLevel.Given? ==> ParseProficiency(body.proficiencyLevel.value).Some?)
      && !body.yearsExperience.Uncastable?
    ensures r.Success? ==>
      && r.value.userId == owner
      && r.value.skillName == body.skillName.value
      && (body.proficiencyLevel.Given? <==> r.value.proficiencyLevel.Some?)
      && (r.value.proficiencyLevel.Some? ==> ProficiencyLabel(r.value.proficiencyLevel.value) == body.proficiencyLevel.value)
      && (body.yearsExperience.Given? ==> r.value.yearsExperience == Some(body.yearsExperience.value))
      && (!body.yearsExperience.Given? ==> r.value.yearsExperience == None)
      && r.value.createdAt == now && r.value.updatedAt == now
    ensures r.Failure? ==>
      && r.error.Invalid?
      && ("skillName" in r.error.paths <==> !(body.skillName.Given? && body.skillName.value != ""))
  {
    var name := RequiredText(body.skillName);
    var level := LevelCheck(body.proficiencyLevel);
    var years := OptionalValue(body.yearsExperience);
    var bad := FailedPath(name, "skillName") + FailedPath(level, "proficiencyLevel") + FailedPath(years, "yearsExperience");
    if bad != {} then Failure(Invalid(bad))
    else Success(Skill(owner, name.value, level.value, years.value, now, now))
  }

  /** `findByIdAndUpdate(id, req.body, { new: true, runValidators: true })`
      on a timestamped schema: the given paths are set (including `userId`),
      `updatedAt` becomes `now`, `createdAt` is kept. */
  function Patch(s: Skill, body: SkillBody, now: Time): (r: Result<Skill, Fault>)
    ensures r.Success? <==>
      && !body.userId.Null? && !body.userId.Uncastable?
      && !body.skillName.Null? && !body.skillName.Uncastable? && body.skillName != Given("")
      && !body.proficiencyLevel.Uncastable?
      && (body.proficiencyLevel.Given? ==> ParseProficiency(body.proficiencyLevel.value).Some?)
      && !body.yearsExperience.Uncastable?
    ensures r.Success? ==>
      && r.value.createdAt == s.createdAt
      && r.value.updatedAt == now
      && (body.userId.Absent? ==> r.value.userId == s.userId)
      && (body.userId.Given? ==> r.value.userId == body.userId.value)
      && (body.skillName.Absent? ==> r.value.skillName == s.skillName)
      && (body.skillName.Given? ==> r.value.skillName == body.skillName.value)
      && (body.proficiencyLevel.Absent? ==> r.value.proficiencyLevel == s.proficiencyLevel)
      && (body.proficiencyLevel.Null? ==> r.value.proficiencyLevel == None)
      && (body.proficiencyLevel.Given? ==>
            r.value.proficiencyLevel.Some? && ProficiencyLabel(r.value.proficiencyLevel.value) == body.proficiencyLevel.value)
      && StoredUpdate(body.yearsExperience, s.yearsExperience, r.value.yearsExperience)
  {
    var owner := PatchOwner(body.userId, s.userId);
    var name := PatchRequiredText(body.skillName, s.skillName);
    var level := LevelPatch(body.proficiencyLevel, s.proficiencyLevel);
    var years := PatchOptional(body.yearsExperience, s.yearsExperience);
    var bad := FailedPath(owner, "userId") + FailedPath(name, "skillName")
             + FailedPath(level, "proficiencyLevel") + FailedPath(years, "yearsExperience");
    if bad != {} then Failure(Invalid(bad))
    else Success(Skill(owner.value, name.value, level.value, years.value, s.createdAt, now))
  }

  // ---------------------------------------------------------------------
  // The controller

  /** `createSkill`: 201 with a document owned by the requester, or 400 with
      nothing stored. */
  function CreateSkill(store: map<Id, Skill>, requester: Id, body: SkillBody, now: Time, newId: Id)
    : (r: Crud.Reply<Skill>)
    ensures r.status == Created <==> Build(body, requester, now).Success? && newId !in store
    ensures r.status == Created ==>
      && newId in r.store
      && r.store == store[newId := r.store[newId]]
      && r.store[newId].userId == requester
      && r.store[newId].skillName == body.skillName.value
      && r.body == Crud.One(Entry(newId, r.store[newId]))
    ensures r.status != Created ==> r.status == BadRequest && r.store == store
  {
    Crud.Create(store, Build(body, requester, now), newId)
  }

  /** `getSkillById`. */
  function GetSkill(store: map<Id, Skill>, requester: Id, rawId: string): (r: Crud.Reply<Skill>)
    ensures r.store == store
    ensures r.status in {Ok, NotFound, Forbidden, ServerError}
    ensures r.status == NotFound ==> r.body == Crud.Message(SkillKind.notFound)
    ensures r.status == Forbidden ==> r.body == Crud.Message(SkillKind.viewDenied)
    ensures r.status == Ok ==>
      && r.body.One? && r.body.entry.doc.userId == requester
      && r.body.entry.id in store && store[r.body.entry.id] == r.body.entry.doc
  {
    Crud.Get(store, Owner, SkillKind, requester, rawId)
  }

  /** `updateSkill`: on success only the target changes, its `updatedAt`
      moves to `now`; on any error nothing changes. */
  function UpdateSkill(store: map<Id, Skill>, requester: Id, rawId: string, body: SkillBody, now: Time)
    : (r: Crud.Reply<Skill>)
    ensures r.status in {Ok, NotFound, Forbidden, BadRequest}
    ensures r.status != Ok ==> r.store == store
    ensures r.status == NotFound ==> r.body == Crud.Message(SkillKind.notFound)
    ensures r.status == Forbidden ==> r.body == Crud.Message(SkillKind.updateDenied)
    ensures r.status == Ok ==>
      && CastObjectId(rawId).Some?
      && var id := CastObjectId(rawId).value;
      && id in store && store[id].userId == requester && id in r.store
      && r.store == store[id := r.store[id]]
      && r.store[id].updatedAt == now && r.store[id].createdAt == store[id].createdAt
      && r.body == Crud.One(Entry(id, r.store[id]))
  {
    Crud.Update(store, Owner, SkillKind, requester, rawId, s => Patch(s, body, now))
  }

  /** `deleteSkill` (the route for it is not mounted). */
  function DeleteSkill(store: map<Id, Skill>, requester: Id, rawId: string): (r: Crud.Reply<Skill>)
    ensures r.status in {Ok, NotFound, Forbidden, ServerError}
    ensures r.status != Ok ==> r.store == store
    ensures r.status == NotFound ==> r.body == Crud.Message(SkillKind.notFound)
    ensures r.status == Forbidden ==> r.body == Crud.Message(SkillKind.deleteDenied)
    ensures r.status == Ok ==>
      && CastObjectId(rawId).Some?
      && var id := CastObjectId(rawId).value;
      && id in store && store[id].userId == requester
      && r.store == store - {id}
      && r.body == Crud.Message(SkillKind.deleted)
  {
    Crud.Delete(store, Owner, SkillKind, requester, rawId)
  }

  /** `getAllSkills`: the requester's skills, newest first. */
  method ListSkills(store: map<Id, Skill>, requester: Id) returns (r: Crud.Reply<Skill>)
    ensures r.status == Ok && r.store == store && r.body.Many?
    ensures Crud.ExactlyOwned(r.body.entries, store, Owner, requester)
    ensures forall i, j :: 0 <= i < j < |r.body.entries| ==>
      r.body.entries[j].doc.createdAt <= r.body.entries[i].doc.createdAt
  {
    r := Crud.ListOwn(store, Owner, CreatedKey, requester);
    assert SortedDesc(r.body.entries, CreatedKey);
  }

  /** `getSkillsByUserId`: 403 for another user's id, 404 when there are no
      skills, otherwise the skills by `yearsExperience`, most first, those
      without a value last. */
  method ListSkillsByUser(store: map<Id, Skill>, requester: Id, userParam: string) returns (r: Crud.Reply<Skill>)
    ensures r.store == store
    ensures userParam != requester ==>
      r.status == Forbidden && r.body == Crud.Message(SkillKind.viewDenied)
    ensures userParam == requester && r.status == NotFound ==>
      r.body == Crud.Message(SkillKind.noneForUser) && Crud.OwnsNothing(store, Owner, requester)
    ensures r.status == Ok ==>
      && userParam == requester && r.body.Many? && |r.body.entries| > 0
      && Crud.ExactlyOwned(r.body.entries, store, Owner, requester)
      && forall i, j :: 0 <= i < j < |r.body.entries| ==>
           KeyLe(YearsKey(r.body.entries[j].doc), YearsKey(r.body.entries[i].doc))
    ensures userParam == requester && !Crud.OwnsNothing(store, Owner, requester) ==> r.status == Ok
    ensures userParam == requester && Crud.OwnsNothing(store, Owner, requester) ==> r.status == NotFound
  {
    r := Crud.ListByUser(store, Owner, YearsKey, SkillKind, requester, userParam);
  }

  /** The `userId` a client puts in a create body has no effect. */
  lemma CreateIgnoresBodyOwner(store: map<Id, Skill>, requester: Id, body: SkillBody, forged: Field<Id>,
                               now: Time, newId: Id)
    ensures CreateSkill(store, requester, body.(userId := forged), now, newId) == CreateSkill(store, requester, body, now, newId)
  {
  }

  /** An update body may name a new `userId`: the owner can hand a skill to
      another user, after which the former owner is refused. */
  lemma UpdateCanReassignOwner(store: map<Id, Skill>, requester: Id, rawId: string, other: Id, now: Time)
    requires other != requester
    requires CastObjectId(rawId).Some? && CastObjectId(rawId).value in store
    requires store[CastObjectId(rawId).value].userId == requester
    ensures var body := SkillBody(Given(other), Absent, Absent, Absent);
      var u := UpdateSkill(store, requester, rawId, body, now);
      && u.status == Ok
      && u.store[CastObjectId(rawId).value].userId == other
      && GetSkill(u.store, requester, rawId).status == Forbidden
  {
  }
}

=== FILE: sorting.dfy ===
/** The order MongoDB's `.sort({ field: -1 })` produces: documents by one
    field, largest first, with documents that lack the field last (BSON
    orders null below every number and date). Ties are left in any order. */
module Sorting {
  import opened Common

  /** The value of the sort field: absent or `null`, or a number (dates are
      compared as their millisecond values). */
  datatype SortKey = Missing | Num(n: real)

  /** Ascending BSON order on sort keys. */
  predicate KeyLe(a: SortKey, b: SortKey)
  {
    if a.Missing? then true
    else if b.Missing? then false
    else a.n <= b.n
  }

  function TimeKey(t: Time): SortKey
  {
    Num(t as real)
  }

  function OptionalTimeKey(t: Option<Time>): SortKey
  {
    if t.Some? then Num(t.value as real) else Missing
  }

  /** Non-increasing in the sort key: the order of `sort({ field: -1 })`. */
  ghost predicate SortedDesc<R>(es: seq<Entry<R>>, key: R -> SortKey)
  {
    forall i, j :: 0 <= i < j < |es| ==> KeyLe(key(es[j].doc), key(es[i].doc))
  }

  /** No two entries carry the same `_id`. */
  ghost predicate DistinctIds<R>(es: seq<Entry<R>>)
  {
    forall i, j :: 0 <= i < j < |es| ==> es[i].id != es[j].id
  }

  /** Places `e` before the first entry whose key it is not below. */
  function Insert<R(==)>(e: Entry<R>, es: seq<Entry<R>>, key: R -> SortKey): (r: seq<Entry<R>>)
    ensures multiset(r) == multiset(es) + multiset{e}
    decreases |es|
  {
    if |es| == 0 then [e]
    else if KeyLe(key(es[0].doc), key(e.doc)) then [e] + es
    else
      assert es == [es[0]] + es[1..];
      [es[0]] + Insert(e, es[1..], key)
  }

  /** Insertion sort: a permutation of `es` in `sort({ field: -1 })` order
      (the order is proved by `SortIsSorted`). */
  function Sort<R(==)>(es: seq<Entry<R>>, key: R -> SortKey): (r: seq<Entry<R>>)
    ensures multiset(r) == multiset(es)
    decreases |es|
  {
    if |es| == 0 then []
    else
      assert es == [es[0]] + es[1..];
      Insert(es[0], Sort(es[1..], key), key)
  }

  /** Putting an entry whose key is at least every later key in front of a
      sorted listing keeps it sorted. */
  lemma ConsSorted<R>(a: Entry<R>, rest: seq<Entry<R>>, key: R -> SortKey)
    requires SortedDesc(rest, key)
    requires forall x :: x in rest ==> KeyLe(key(x.doc), key(a.doc))
    ensures SortedDesc([a] + rest, key)
  {
    var s := [a] + rest;
    forall i, j | 0 <= i < j < |s| ensures KeyLe(key(s[j].doc), key(s[i].doc)) {
      if i == 0 {
        assert s[j] == rest[j - 1];
      } else {
        assert s[i] == rest[i - 1] && s[j] == rest[j - 1];
      }
    }
  }

  lemma {:induction false} InsertSorted<R>(e: Entry<R>, es: seq<Entry<R>>, key: R -> SortKey)
    requires SortedDesc(es, key)
    ensures SortedDesc(Insert(e, es, key), key)
    decreases |es|
  {
    if |es| == 0 {
    } else if KeyLe(key(es[0].doc), key(e.doc)) {
      ConsSorted(e, es, key);
    } else {
      var rest := Insert(e, es[1..], key);
      InsertSorted(e, es[1..], key);
      assert multiset(rest) == multiset(es[1..]) + multiset{e};
      forall x | x in rest ensures KeyLe(key(x.doc), key(es[0].doc)) {
        assert x in multiset(rest);
        if x != e {
          assert x in multiset(es[1..]);
          var j :| 0 <= j < |es[1..]| && es[1..][j] == x;
          assert es[j + 1] == x;
        }
      }
      ConsSorted(es[0], rest, key);
    }
  }

  /** The result of `Sort` is in `sort({ field: -1 })` order. */
  lemma {:induction false} SortIsSorted<R>(es: seq<Entry<R>>, key: R -> SortKey)
    ensures SortedDesc(Sort(es, key), key)
    decreases |es|
  {
    if |es| > 0 {
      SortIsSorted(es[1..], key);
      InsertSorted(es[0], Sort(es[1..], key), key);
    }
  }

  /** Putting an entry in front of a listing whose ids all differ from its
      own keeps the ids distinct. */
  lemma ConsDistinct<R>(a: Entry<R>, rest: seq<Entry<R>>)
    requires DistinctIds(rest)
    requires forall x :: x in rest ==> x.id != a.id
    ensures DistinctIds([a] + rest)
  {
    var s := [a] + rest;
    forall i, j | 0 <= i < j < |s| ensures s[i].id != s[j].id {
      if i == 0 {
        assert s[j] in rest;
      } else {
        assert s[i] == rest[i - 1] && s[j] == rest[j - 1];
      }
    }
  }

  /** Every entry of `Insert(e, es)` is `e` or an entry of `es`. */
  lemma InsertMembers<R>(e: Entry<R>, es: seq<Entry<R>>, key: R -> SortKey, x: Entry<R>)
    requires x in Insert(e, es, key)
    ensures x == e || x in es
  {
    assert x in multiset(Insert(e, es, key));
  }

  lemma {:induction false} InsertDistinct<R>(e: Entry<R>, es: seq<Entry<R>>, key: R -> SortKey)
    requires DistinctIds(es)
    requires forall x :: x in es ==> x.id != e.id
    ensures DistinctIds(Insert(e, es, key))
    decreases |es|
  {
    if |es| == 0 {
    } else if KeyLe(key(es[0].doc), key(e.doc)) {
      ConsDistinct(e, es);
    } else {
      var rest := Insert(e, es[1..], key);
      assert DistinctIds(es[1..]);
      InsertDistinct(e, es[1..], key);
      forall x | x in rest ensures x.id != es[0].id {
        InsertMembers(e, es[1..], key, x);
        if x != e {
          var j :| 0 <= j < |es[1..]| && es[1..][j] == x;
          assert es[j + 1] == x;
        }
      }
      ConsDistinct(es[0], rest);
    }
  }

  /** Sorting never duplicates an `_id`. */
  lemma {:induction false} SortDistinct<R>(es: seq<Entry<R>>, key: R -> SortKey)
    requires DistinctIds(es)
    ensures DistinctIds(Sort(es, key))
    decreases |es|
  {
    if |es| > 0 {
      var rest := Sort(es[1..], key);
      SortDistinct(es[1..], key);
      forall x | x in rest ensures x.id != es[0].id {
        assert x in multiset(rest);
        assert x in multiset(es[1..]);
        var j :| 0 <= j < |es[1..]| && es[1..][j] == x;
        assert es[j + 1] == x;
      }
      InsertDistinct(es[0], rest, key);
    }
  }
}

=== FILE: text.dfy ===
/** The JavaScript string operations the handlers rely on: `startsWith`,
    `split` on one character, `join`, and the `\s` character class. */
module Text {

  /** The characters JavaScript's `\s` and `String.prototype.trim` treat as
      white space: the WhiteSpace and LineTerminator productions of
      ECMAScript (tab, vertical tab, form feed, space, no-break space, the
      byte-order mark, the Unicode space separators, line feed, carriage
      return, line and paragraph separators). */
  predicate IsJsSpace(c: char)
  {
    || c == '\t' || c == '\n' || c == '\U{000B}' || c == '\U{000C}' || c == '\r' || c == ' '
    || c == '\U{00A0}' || c == '\U{1680}' || ('\U{2000}' <= c <= '\U{200A}')
    || c == '\U{2028}' || c == '\U{2029}' || c == '\U{202F}' || c == '\U{205F}'
    || c == '\U{3000}' || c == '\U{FEFF}'
  }

  predicate StartsWith(s: string, prefix: string)
  {
    |prefix| <= |s| && s[..|prefix|] == prefix
  }

  predicate Contains(s: string, c: char)
  {
    exists i :: 0 <= i < |s| && s[i] == c
  }

  /** `s.split(c)` for a one-character separator: the maximal pieces between
      separators, including empty ones; an empty string gives one empty
      piece. */
  function Split(s: string, c: char): (r: seq<string>)
    ensures |r| >= 1
    decreases |s|
  {
    if |s| == 0 then [""]
    else if s[0] == c then [""] + Split(s[1..], c)
    else
      var t := Split(s[1..], c);
      [[s[0]] + t[0]] + t[1..]
  }

  /** `xs.join(sep)`. */
  function Join(xs: seq<string>, sep: string): string
  {
    if |xs| == 0 then ""
    else if |xs| == 1 then xs[0]
    else xs[0] + sep + Join(xs[1..], sep)
  }

  /** `s` with every occurrence of `c` replaced by `d`. */
  function ReplaceChar(s: string, c: char, d: char): (r: string)
    ensures |r| == |s|
    ensures forall i :: 0 <= i < |s| ==> r[i] == (if s[i] == c then d else s[i])
  {
    seq(|s|, i requires 0 <= i < |s| => if s[i] == c then d else s[i])
  }

  /** The text before the first `c`, or all of `s` when `c` is absent. */
  function TakeUntil(s: string, c: char): (r: string)
    ensures StartsWith(s, r)
    ensures !Contains(r, c)
    ensures |r| < |s| ==> s[|r|] == c
    decreases |s|
  {
    if |s| == 0 || s[0] == c then "" else [s[0]] + TakeUntil(s[1..], c)
  }

  /** Splitting on `c` and joining with `d` is the same as replacing every
      `c` by `d`: the pieces keep their text and their order. */
  lemma {:induction false} JoinSplitIsReplace(s: string, c: char, d: char)
    ensures Join(Split(s, c), [d]) == ReplaceChar(s, c, d)
    decreases |s|
  {
    if |s| == 0 {
    } else {
      var t := Split(s[1..], c);
      JoinSplitIsReplace(s[1..], c, d);
      assert ReplaceChar(s, c, d) == [if s[0] == c then d else s[0]] + ReplaceChar(s[1..], c, d);
      if s[0] == c {
        assert Split(s, c) == [""] + t;
      } else if |t| == 1 {
        assert Split(s, c) == [[s[0]] + t[0]];
      } else {
        assert Split(s, c) == [[s[0]] + t[0]] + t[1..];
        assert Join(t, [d]) == t[0] + [d] + Join(t[1..], [d]);
        assert ([[s[0]] + t[0]] + t[1..])[1..] == t[1..];
      }
    }
  }

  /** Joining the pieces of a split with the same separator gives back the
      original string. */
  lemma JoinSplit(s: string, c: char)
    ensures Join(Split(s, c), [c]) == s
  {
    JoinSplitIsReplace(s, c, c);
    assert ReplaceChar(s, c, c) == s;
  }

  /** A piece with no separator in it splits to itself. */
  lemma {:induction false} SplitNoSeparator(a: string, c: char)
    requires !Contains(a, c)
    ensures Split(a, c) == [a]
    decreases |a|
  {
    if |a| > 0 {
      assert !Contains(a[1..], c) by {
        forall i | 0 <= i < |a[1..]| ensures a[1..][i] != c {
          assert a[1..][i] == a[i + 1];
        }
      }
      SplitNoSeparator(a[1..], c);
      assert a == [a[0]] + a[1..];
    }
  }

  /** Splitting stops at the first separator. */
  lemma {:induction false} SplitAtFirst(a: string, c: char, b: string)
    requires !Contains(a, c)
    ensures Split(a + [c] + b, c) == [a] + Split(b, c)
    decreases |a|
  {
    if |a| == 0 {
      assert a + [c] + b == [c] + b;
      assert ([c] + b)[1..] == b;
    } else {
      assert !Contains(a[1..], c) by {
        forall i | 0 <= i < |a[1..]| ensures a[1..][i] != c {
          assert a[1..][i] == a[i + 1];
        }
      }
      SplitAtFirst(a[1..], c, b);
      assert (a + [c] + b)[1..] == a[1..] + [c] + b;
      assert a == [a[0]] + a[1..];
    }
  }

  /** Splitting a join recovers the pieces, provided there is at least one
      piece and none of them contains the separator. */
  lemma {:induction false} SplitJoin(xs: seq<string>, c: char)
    requires |xs| >= 1
    requires forall i :: 0 <= i < |xs| ==> !Contains(xs[i], c)
    ensures Split(Join(xs, [c]), c) == xs
    decreases |xs|
  {
    if |xs| == 1 {
      SplitNoSeparator(xs[0], c);
    } else {
      SplitJoin(xs[1..], c);
      SplitAtFirst(xs[0], c, Join(xs[1..], [c]));
      assert xs == [xs[0]] + xs[1..];
    }
  }

  /** The first piece of a split is the text before the first separator. */
  lemma {:induction false} FirstPiece(s: string, c: char)
    ensures Split(s, c)[0] == TakeUntil(s, c)
    decreases |s|
  {
    if |s| > 0 && s[0] != c {
      FirstPiece(s[1..], c);
    }
  }

  /** When `s[..i]` holds no `c` and `s[i] == c`, the text before the first
      `c` is `s[..i]`. */
  lemma {:induction false} TakeUntilAt(s: string, c: char, i: nat)
    requires i < |s| && s[i] == c && !Contains(s[..i], c)
    ensures TakeUntil(s, c) == s[..i]
    decreases i
  {
    if i > 0 {
      assert s[0] == s[..i][0];
      var t := s[1..][..i - 1];
      assert !Contains(t, c) by {
        forall k | 0 <= k < |t| ensures t[k] != c {
          assert t[k] == s[..i][k + 1];
        }
      }
      TakeUntilAt(s[1..], c, i - 1);
      assert s[..i] == [s[0]] + s[1..][..i - 1];
    }
  }

  /** A join of pieces free of `c`, with a separator free of `c`, is free
      of `c`. */
  lemma {:induction false} JoinAvoids(xs: seq<string>, sep: string, c: char)
    requires forall i :: 0 <= i < |xs| ==> !Contains(xs[i], c)
    requires !Contains(sep, c)
    ensures !Contains(Join(xs, sep), c)
    decreases |xs|
  {
    if |xs| > 1 {
      JoinAvoids(xs[1..], sep, c);
      var j := Join(xs[1..], sep);
      forall k | 0 <= k < |xs[0] + sep + j| ensures (xs[0] + sep + j)[k] != c {
        if k < |xs[0]| {
          assert (xs[0] + sep + j)[k] == xs[0][k];
        } else if k < |xs[0]| + |sep| {
          assert (xs[0] + sep + j)[k] == sep[k - |xs[0]|];
        } else {
          assert (xs[0] + sep + j)[k] == j[k - |xs[0]| - |sep|];
        }
      }
    }
  }

  // ---------------------------------------------------------------------
  // Reading lines back out of a text

  /** The text of `p` from `start` up to the next line break. */
  function ReadLine(p: string, start: nat): (r: string)
    requires start <= |p|
    ensures |r| <= |p| - start && !Contains(r, '\n')
  {
    TakeUntil(p[start..], '\n')
  }

  /** Reading from `k` up to the next line break gives back the line there. */
  lemma ReadBack(p: string, k: nat, a: string, rest: string)
    requires k <= |p| && p[k..] == a + ("\n" + rest)
    requires !Contains(a, '\n')
    ensures ReadLine(p, k) == a
  {
    assert p[k..][..|a|] == a;
    TakeUntilAt(p[k..], '\n', |a|);
  }

  /** Three lines, each after its label and each ended by a line break,
      between a head and a tail. */
  function Layout(h: string, a: string, q: string, b: string, i: string, c: string, r: string): string
  {
    h + (a + ("\n" + (q + (b + ("\n" + (i + (c + ("\n" + r))))))))
  }

  /** After equal prefixes, a line ended by a break determines both the line
      and what follows it. */
  lemma PeelLine(x: string, a1: string, t1: string, a2: string, t2: string)
    requires !Contains(a1, '\n') && !Contains(a2, '\n')
    requires x + (a1 + ("\n" + t1)) == x + (a2 + ("\n" + t2))
    ensures a1 == a2 && t1 == t2
  {
    var y1 := a1 + ("\n" + t1);
    var y2 := a2 + ("\n" + t2);
    assert y1 == (x + y1)[|x|..] == (x + y2)[|x|..] == y2;
    ReadBack(y1, 0, a1, t1);
    ReadBack(y2, 0, a2, t2);
    assert y1[|a1| + 1..] == t1;
    assert y2[|a2| + 1..] == t2;
  }

  /** With the fixed parts equal, a layout determines its three lines. */
  lemma LayoutInjective(h: string, q: string, i: string, r: string,
                        a1: string, b1: string, c1: string, a2: string, b2: string, c2: string)
    requires !Contains(a1, '\n') && !Contains(b1, '\n') && !Contains(c1, '\n')
    requires !Contains(a2, '\n') && !Contains(b2, '\n') && !Contains(c2, '\n')
    ensures Layout(h, a1, q, b1, i, c1, r) == Layout(h, a2, q, b2, i, c2, r) <==> a1 == a2 && b1 == b2 && c1 == c2
  {
    if Layout(h, a1, q, b1, i, c1, r) == Layout(h, a2, q, b2, i, c2, r) {
      var u1 := i + (c1 + ("\n" + r));
      var u2 := i + (c2 + ("\n" + r));
      var t1 := q + (b1 + ("\n" + u1));
      var t2 := q + (b2 + ("\n" + u2));
      PeelLine(h, a1, t1, a2, t2);
      PeelLine(q, b1, u1, b2, u2);
      PeelLine(i, c1, r, c2, r);
    }
  }
}

=== FILE: users.dfy ===
/** The User schema: required and unique `username` and `email`, the email
    pattern, the password-hashing `pre('save')` hook and `matchPassword`.
    bcrypt is an oracle: `hash` stands for `bcrypt.hash(_, 10)` and
    `compare` for `bcrypt.compare`. */
module Users {
  import opened Common
  import opened Text

  /** A stored user; `password` holds whatever the save hook left there
      (the hash, for a user created through `save`). */
  datatype User = User(
    username: string,
    email: string,
    password: string,
    firstName: Option<string>,
    lastName: Option<string>,
    createdAt: Time,
    updatedAt: Time)

  /** The declared schema paths of a registration body; the `timestamps`
      paths are left out of the model. */
  datatype UserBody = UserBody(
    username: Field<string>,
    email: Field<string>,
    password: Field<string>,
    firstName: Field<string>,
    lastName: Field<string>)

  /** The user as `findById(id).select('-password')` returns it. */
  datatype Principal = Principal(
    id: Id,
    username: string,
    email: string,
    firstName: Option<string>,
    lastName: Option<string>,
    createdAt: Time,
    updatedAt: Time)

  function WithoutPassword(id: Id, u: User): (p: Principal)
    ensures p.id == id && p.username == u.username && p.email == u.email
    ensures p.firstName == u.firstName && p.lastName == u.lastName
    ensures p.createdAt == u.createdAt && p.updatedAt == u.updatedAt
  {
    Principal(id, u.username, u.email, u.firstName, u.lastName, u.createdAt, u.updatedAt)
  }

  // ---------------------------------------------------------------------
  // The email pattern /^[^\s@]+@[^\s@]+\.[^\s@]+$/

  /** A non-empty run of `[^\s@]`. */
  predicate Plain(s: string)
  {
    |s| > 0 && forall k :: 0 <= k < |s| ==> !IsJsSpace(s[k]) && s[k] != '@'
  }

  /** The pattern read off the regular expression: a plain local part, `@`,
      a plain run, a literal `.`, and a plain run to the end. */
  ghost predicate MatchesEmailPattern(s: string)
  {
    exists i, j :: 0 < i && i + 1 < j && j + 1 < |s| && s[i] == '@' && s[j] == '.'
      && Plain(s[..i]) && Plain(s[i + 1..j]) && Plain(s[j + 1..])
  }

  /** The check as a scan: split at the first `@`; both sides plain; the
      domain side has a `.` that is neither its first nor its last
      character. */
  predicate ValidEmail(s: string)
  {
    var local := TakeUntil(s, '@');
    && 0 < |local| < |s|
    && Plain(local)
    && Plain(s[|local| + 1..])
    && exists k :: |local| + 1 < k < |s| - 1 && s[k] == '.'
  }

  lemma PlainSlice(s: string, a: nat, b: nat)
    requires Plain(s) && a < b <= |s|
    ensures Plain(s[a..b])
  {
    forall k | 0 <= k < b - a ensures !IsJsSpace(s[a..b][k]) && s[a..b][k] != '@' {
      assert s[a..b][k] == s[a + k];
    }
  }

  /** Three plain runs around `@` and `.` make a plain-free-of-`@` domain. */
  lemma PlainJoin(s: string, i: nat, j: nat)
    requires 0 < i && i + 1 < j && j + 1 < |s| && s[j] == '.'
    requires Plain(s[i + 1..j]) && Plain(s[j + 1..])
    ensures Plain(s[i + 1..])
  {
    var d := s[i + 1..];
    forall k | 0 <= k < |d| ensures !IsJsSpace(d[k]) && d[k] != '@' {
      assert d[k] == s[i + 1 + k];
      if i + 1 + k < j {
        assert s[i + 1..j][k] == s[i + 1 + k];
      } else if i + 1 + k > j {
        assert s[j + 1..][i + k - j] == s[i + 1 + k];
      }
    }
  }

  /** The scan accepts exactly the strings the regular expression matches. */
  lemma ValidEmailMatchesPattern(s: string)
    ensures ValidEmail(s) <==> MatchesEmailPattern(s)
  {
    if ValidEmail(s) {
      var local := TakeUntil(s, '@');
      var i := |local|;
      var k :| i + 1 < k < |s| - 1 && s[k] == '.';
      assert s[..i] == local;
      assert s[i] == '@';
      PlainSlice(s[i + 1..], 0, k - i - 1);
      assert s[i + 1..][0..k - i - 1] == s[i + 1..k];
      PlainSlice(s[i + 1..], k - i, |s| - i - 1);
      assert s[i + 1..][k - i..|s| - i - 1] == s[k + 1..];
      assert Plain(s[..i]) && Plain(s[i + 1..k]) && Plain(s[k + 1..]);
    }
    if MatchesEmailPattern(s) {
      var i, j :| 0 < i && i + 1 < j && j + 1 < |s| && s[i] == '@' && s[j] == '.'
        && Plain(s[..i]) && Plain(s[i + 1..j]) && Plain(s[j + 1..]);
      assert !Contains(s[..i], '@');
      TakeUntilAt(s, '@', i);
      PlainJoin(s, i, j);
    }
  }

  // ---------------------------------------------------------------------
  // Validation, the save hook, uniqueness

  /** The `required` checks and the `match` validator. The pattern runs only
      on a non-empty value, so an empty email fails `required` alone. */
  function Validate(body: UserBody, now: Time): (r: Result<User, Fault>)
    ensures r.Success? <==>
      && body.username.Given? && body.username.value != ""
      && body.email.Given? && ValidEmail(body.email.value)
      && body.password.Given? && body.password.value != ""
      && !body.firstName.Uncastable? && !body.lastName.Uncastable?
    ensures r.Success? ==>
      && r.value.username == body.username.value && r.value.email == body.email.value
      && r.value.password == body.password.value
      && StoredNew(body.firstName, r.value.firstName)
      && StoredNew(body.lastName, r.value.lastName)
      && r.value.createdAt == now && r.value.updatedAt == now
    ensures r.Failure? ==> r.error.Invalid?
    ensures r.Failure? ==> ("username" in r.error.paths <==> !(body.username.Given? && body.username.value != ""))
    ensures r.Failure? ==> ("email" in r.error.paths <==> !(body.email.Given? && ValidEmail(body.email.value)))
  {
    var name := RequiredText(body.username);
    var mail := match RequiredText(body.email)
      case Pass(e) => if ValidEmail(e) then Pass(e) else Reject
      case Reject => Reject;
    var pass := RequiredText(body.password);
    var first := OptionalValue(body.firstName);
    var last := OptionalValue(body.lastName);
    var bad := FailedPath(name, "username") + FailedPath(mail, "email") + FailedPath(pass, "password")
             + FailedPath(first, "firstName") + FailedPath(last, "lastName");
    if bad != {} then Failure(Invalid(bad))
    else Success(User(name.value, mail.value, pass.value, first.value, last.value, now, now))
  }

  /** `pre('save')`: the password is replaced by its hash only when it was
      modified since the last save. */
  function PreSave(u: User, passwordModified: bool, hash: string -> string): (r: User)
    ensures r.(password := u.password) == u
    ensures passwordModified ==> r.password == hash(u.password)
    ensures !passwordModified ==> r == u
  {
    if passwordModified then u.(password := hash(u.password)) else u
  }

  /** `matchPassword(entered)`: bcrypt's comparison of the entry against the
      stored hash, and nothing else. */
  function MatchPassword(u: User, entered: string, compare: (string, string) -> bool): bool
  {
    compare(entered, u.password)
  }

  /** The unique indexes on `username` and `email`: no two users share
      either. */
  ghost predicate Unique(users: map<Id, User>)
  {
    forall a, b :: a in users && b in users && a != b ==>
      users[a].username != users[b].username && users[a].email != users[b].email
  }

  ghost predicate Clashes(users: map<Id, User>, u: User)
  {
    exists k :: k in users && (users[k].username == u.username || users[k].email == u.email)
  }

  /** The insert behind `save()` on a new user: an E11000 error when the
      `_id`, the username or the email is already taken. */
  function Insert(users: map<Id, User>, u: User, newId: Id): (r: Result<map<Id, User>, Fault>)
    ensures r.Success? <==> newId !in users && !Clashes(users, u)
    ensures r.Failure? ==> r.error == DuplicateKey
    ensures r.Success? ==> r.value == users[newId := u]
  {
    if newId in users then Failure(DuplicateKey)
    else if exists k :: k in users && (users[k].username == u.username || users[k].email == u.email) then
      Failure(DuplicateKey)
    else Success(users[newId := u])
  }

  /** A successful insert keeps the unique indexes honest. */
  lemma InsertKeepsUnique(users: map<Id, User>, u: User, newId: Id)
    requires Unique(users)
    ensures Insert(users, u, newId).Success? ==> Unique(Insert(users, u, newId).value)
  {
    if Insert(users, u, newId).Success? {
      var m := users[newId := u];
      forall a, b | a in m && b in m && a != b
        ensures m[a].username != m[b].username && m[a].email != m[b].email
      {
        if a == newId {
          assert !(users[b].username == u.username || users[b].email == u.email);
        } else if b == newId {
          assert !(users[a].username == u.username || users[a].email == u.email);
        }
      }
    }
  }

  /** `new User(body).save()`: validation, then the hook (a new document's
      password always counts as modified), then the insert. */
  function Register(users: map<Id, User>, body: UserBody, now: Time, newId: Id, hash: string -> string)
    : (r: Result<map<Id, User>, Fault>)
    ensures r.Success? ==>
      && Validate(body, now).Success?
      && newId in r.value && newId !in users
      && r.value == users[newId := r.value[newId]]
      && r.value[newId].password == hash(body.password.value)
      && r.value[newId].username == body.username.value
      && r.value[newId].email == body.email.value
    ensures Validate(body, now).Failure? ==> r == Failure(Validate(body, now).error)
    ensures Validate(body, now).Success? && r.Failure? ==> r.error == DuplicateKey
  {
    match Validate(body, now)
    case Failure(f) => Failure(f)
    case Success(u) => Insert(users, PreSave(u, true, hash), newId)
  }

  /** Registration never breaks the unique indexes. */
  lemma RegisterKeepsUnique(users: map<Id, User>, body: UserBody, now: Time, newId: Id, hash: string -> string)
    requires Unique(users)
    ensures Register(users, body, now, newId, hash).Success? ==> Unique(Register(users, body, now, newId, hash).value)
  {
    if Validate(body, now).Success? {
      InsertKeepsUnique(users, PreSave(Validate(body, now).value, true, hash), newId);
    }
  }

  /** A body without a username is rejected with an error on `username`,
      whatever else it holds. */
  lemma MissingUsernameRejected(users: map<Id, User>, body: UserBody, now: Time, newId: Id, hash: string -> string)
    requires body.username.Absent?
    ensures var r := Register(users, body, now, newId, hash);
      r.Failure? && r.error.Invalid? && "username" in r.error.paths
  {
  }

  /** The password survives the round trip through hashing: under bcrypt's
      law, the registered user's own password matches, and, when the hash
      is also collision-free, every other password does not. */
  lemma RegisterThenMatch(users: map<Id, User>, body: UserBody, now: Time, newId: Id,
                          hash: string -> string, compare: (string, string) -> bool, entered: string)
    requires forall p :: compare(p, hash(p))
    requires forall p, q :: compare(p, hash(q)) ==> p == q
    requires Register(users, body, now, newId, hash).Success?
    ensures var stored := Register(users, body, now, newId, hash).value[newId];
      MatchPassword(stored, entered, compare) <==> entered == body.password.value
  {
  }

  /** Saving again without touching the password does not hash the hash. */
  lemma NoDoubleHash(u: User, hash: string -> string, compare: (string, string) -> bool)
    requires forall p :: compare(p, hash(p))
    ensures MatchPassword(PreSave(PreSave(u, true, hash), false, hash), u.password, compare)
  {
  }
}
